=== FILE: README.md ===
# The Lonely Machine: a Dafny model of the Street View pipeline

The Lonely Machine photographs places through the Google Street View Static
API. It has four stages:

- **Sampling.** It samples a bounding box (scaled integer degrees) either evenly
  or at random. It cross-joins the two axes into a table of "lat,long" rows.
- **Row preprocessing.** It turns each row into a `location` query value and an
  image file name.
- **Requests.** It builds and signs one request URL per row and asks the user to
  confirm it. It saves the reply when the request succeeds.
- **Front ends.** An interactive prompt front end and an agent front end wrap
  the same steps. The agent front end gathers the photo paths from an agent
  trace.

This project models the deterministic core of those stages as pure Dafny
functions and small loop methods, and proves what each stage promises.
Everything outside that core is passed in as a parameter:

- HTTP replies (`Http.Transport`);
- URL signing (`Http.Signer`);
- the user's typed answers (a sequence of lines, or `nat -> string`);
- the random draws (an entropy stream `nat -> nat`);
- the environment variables and the parsed `config.ini`.

One module per source file:

- `Base`: `Option` / `Result` and `Bytes`;
- `Strings`: the Python string operations the code relies on: `str(int)`, `int(str)`, `strip`, one-character `replace`, `lower`, `in`, `os.path.join`;
- `Records`, `Config`: the parameter dictionaries, the table row, and the constants of `the_machine/config.py`;
- `Http`: `requests` replies, `raise_for_status` / `ok`, and query-string rendering;
- `Generator`: `the_machine/locations/generator.py`;
- `Processor`: `the_machine/locations/processor.py`;
- `Client`: `the_machine/api/client.py`;
- `FetchLoc`, `GenerateLoc`: the older scripts `data/StreetView_API/fetch_loc.py` and `generate_loc.py`;
- `AgenticMachine`, `AgenticApp`: the agent tool and the trace post-processing;
- `InteractRun`: the pure steps of the interactive front end.

How the model is put together:

- **Exceptions.** Most exceptions the code raises or lets escape are a
  `Failure` of a `Result`. Examples: a negative or zero `n_locs`, an empty
  random range, a zero `np.arange` step, an unknown method name, a
  `RequestException` that is not caught, a trace span without its output.
  The exceptions listed under "Left out" are not modelled.
- **Square roots.** The float `n_locs ** 0.5` is replaced by its exact integer
  characterisation (`Generator.Isqrt`, `Generator.FloorDivSqrt`).
- **Random sampling.** numpy's seeded generator becomes a free in-range choice.
  `Generator.RandomChoiceIsComplete` proves that every in-range outcome is
  reachable.

## Model

| member | source | states |
|---|---|---|
| `Generator.Isqrt` | source/the_machine/locations/generator.py:39 | `int(n ** 0.5)` is the integer r with r² ≤ n < (r+1)² |
| `Generator.FloorDivSqrt` | source/the_machine/locations/generator.py:19-23 | the even step is floor(range / √n_locs): for range ≥ 0 the largest q ≥ 0 with q²·n ≤ range²; for a negative range the negative q bracketing it, stated with squares only |
| `Generator.FloorDivSqrtZero` | source/the_machine/locations/generator.py:22-25 | the step is 0, which makes `np.arange` fail, exactly when 0 ≤ range and range² < n_locs |
| `Generator.Arange` | source/the_machine/locations/generator.py:24-25 | the axis starts at min, moves by exactly `step` each time, stays strictly before max in the step's direction, and one more step would reach or pass max |
| `Generator.ArangeLength` | source/the_machine/locations/generator.py:24-25 | the axis has ceil((max − min) / step) elements, or none when the range is empty in the step's direction |
| `Generator.EvenlyGenerate` | source/the_machine/locations/generator.py:9-26 | fails exactly when n_locs ≤ 0 or either axis's step rounds to 0; otherwise each axis is the arange from min to max with that axis's own step |
| `Generator.RandomlyGenerate` | source/the_machine/locations/generator.py:29-43 | fails exactly when n_locs < 0, or when at least one value is drawn and an axis range is empty; zero draws give two empty axes before any bounds check; otherwise both axes have floor(√n_locs) values, each inside [min, max) of its axis |
| `Generator.DrawAxis` | source/the_machine/locations/generator.py:41-42 | `rng.integers(lo, hi, n)` yields n values, all in [lo, hi) |
| `Generator.RandomChoiceIsComplete` | source/the_machine/locations/generator.py:39-42 | every pair of in-range axes of length floor(√n_locs) is an outcome of the random method for some entropy stream |
| `Generator.DecimalFormat` | source/the_machine/locations/generator.py:63-64 | formatting adds exactly one character, a '.' after the first two characters (or at the end of a shorter string) |
| `Generator.DecimalFormatRoundTrip` | source/the_machine/locations/generator.py:60-64 | deleting that '.' from the formatted value gives back `str(v)` |
| `Generator.DefaultBoxFormats` | source/the_machine/config.py:26-29 | each default corner is an 8-digit number, so it prints as "DD.DDDDDD" |
| `Generator.CrossJoin` | source/the_machine/locations/generator.py:58-59 | the nested loop yields one row per (lat, lon) pair: len(lats)·len(lons) rows |
| `Generator.CrossJoinLayout` | source/the_machine/locations/generator.py:58-59 | row i·len(lons) + j of the join comes from lats[i] and lons[j]: the order is latitude-major |
| `Generator.GenerateCoordinatesLayout` | source/the_machine/locations/generator.py:57-70 | the table has len(lats)·len(lons) rows; row i·len(lons) + j has Address, City and Country "-" and the formatted lats[i] and lons[j] |
| `Generator.CreateLocations` | source/the_machine/locations/generator.py:83-98 | succeeds exactly when both samplers succeed and the method is "random" or "even"; the path is cwd joined with "athens_<method>.csv", the columns are Address, City, Country, lat, long, and the rows are the cross join of the chosen method's axes |
| `Generator.ZeroCountAlwaysFails` | source/the_machine/locations/generator.py:83-84 | with n_locs = 0 the random sampler returns two empty axes, but the even sampler divides by zero, so `create_locations` fails with that error even for method "random" |
| `Generator.UnknownMethodFailsLast` | source/the_machine/locations/generator.py:83-84 | an unknown method always fails, and reports itself exactly when both samplers have already succeeded |
| `Generator.DefaultRandomTable` | source/the_machine/config.py:25-31 | the default parameters (random, 10 locations, Athens box) give 3 × 3 = 9 rows written to athens_random.csv |
| `Processor.Stem` | source/the_machine/locations/processor.py:19-24 | the file-name stem never holds '.'; in coordinates mode it is lat + "_" + long with the dots deleted; in address mode it holds no ' ' |
| `Processor.Location` | source/the_machine/locations/processor.py:18-23 | in address mode the location is Address, City and Country joined by ',' with every space removed, so it holds no ' ' |
| `Processor.Preprocess` | source/the_machine/locations/processor.py:15-26 | the location is lat + "," + long in coordinates mode and the space-free address fields joined by ',' otherwise; the file name starts "view_", ends ".jpg", gives back the row index, and has no '.' in its stem |
| `Processor.FileNameParts` | source/the_machine/locations/processor.py:25 | "view_<index>_<stem>.jpg" is 10 characters longer than the index digits and the stem together, and the stem sits between the index's '_' and ".jpg" |
| `Processor.PreprocessLocation` | source/the_machine/locations/processor.py:15-19 | with the global mode "coordinates", every row gives location lat + "," + long and a file name whose stem is lat and long without dots, joined by '_' |
| `Processor.FileNameIndexRoundTrip` | source/the_machine/locations/processor.py:25 | the index can be read back from any file name: the digits between "view_" and the next '_' |
| `Processor.FileNamesDistinct` | source/the_machine/locations/processor.py:25 | rows with different indices never share a file name |
| `Processor.CoordinateLocationSplits` | source/the_machine/locations/processor.py:18 | a coordinate location splits back into lat and long at its first ',' |
| `Processor.GeneratedRowFileName` | source/the_machine/locations/processor.py:19-25 | for the lat and long cell strings exactly as the generator writes them, the dots the generator inserted are exactly the ones the processor deletes: the file name is "view_<index>_<str(lat)>_<str(lon)>.jpg"; the CSV round trip in between is not modelled (see "Left out") |
| `Client.GetCredentials` | source/the_machine/api/client.py:25-37 | the environment pair wins when both halves are non-empty; otherwise the `[credentials]` key and secret when the config file exists and has that section; otherwise (None, None) |
| `Client.CredentialsNeverMixed` | source/the_machine/api/client.py:25-37 | key and secret come from the same source; an environment key is returned alone only when the config file holds that same key |
| `Client.RequestPairs` | source/the_machine/api/client.py:56-64 | the seven required parameters come first in fixed order; `source` follows exactly when it is non-empty and not "default"; `pitch` comes last exactly when it is non-empty |
| `Client.RequestUrlText` | source/the_machine/api/client.py:56-64 | the URL is the base, '?', then key=…&size=…&location=…&radius=…&fov=…&heading=…&return_error_code=…, then the optional parameters |
| `Client.RequestUrl` | source/the_machine/api/client.py:56-64 | the URL opens with the base, "?key=<key>" and "&size=<size>", and ends with "&pitch=<pitch>" whenever pitch is sent |
| `Client.DefaultRequestPairs` | source/the_machine/config.py:13-22 | with the default parameters `source=default` is never sent and `pitch=10` always is |
| `Client.ConfirmedAnswers` | source/the_machine/api/client.py:70 | exactly the answers "y" and "Y" confirm a request |
| `Client.FetchImageFromLocation` | source/the_machine/api/client.py:56-78 | the request is the signed URL; an answer that is not confirmed declines it; the body is saved to `filename` exactly when the answer is confirmed, the request goes through and the status does not raise; every other error is caught within the row |
| `Client.Attempted` | source/the_machine/api/client.py:101-111 | the loop handles at most N rows, at least one when N > 0, and at most n_addresses when n_addresses ≥ 1 |
| `Client.AttemptedAtBreak` | source/the_machine/api/client.py:110-111 | breaking after index i, the first index with i + 1 ≥ n_addresses, handles i + 1 rows |
| `Client.AttemptedAtEnd` | source/the_machine/api/client.py:101-111 | a table that ends before the limit is handled in full |
| `Client.DefaultLimitIsOneRow` | source/the_machine/config.py:14 | with the default n_addresses of 1, exactly one row is handled |
| `Client.ProcessRows` | source/the_machine/api/client.py:101-111 | the loop handles rows 0, 1, … in order and stops after the row where i + 1 ≥ limit; each outcome is that row's own result |
| `Client.FetchRows` | source/the_machine/api/client.py:101-111 | with known credentials, `fetch_images` handles the first Attempted(N, n_addresses) rows in order, each with its preprocessed location and the file name joined to save_dir |
| `Client.FetchImages` | source/the_machine/api/client.py:92-111 | `fetch_images` returns before touching the table exactly when the chosen key or secret is missing or empty; otherwise its outcomes are those of the row loop |
| `FetchLoc.PreprocessLocation` | data/StreetView_API/fetch_loc.py:33-45 | with this script's mode 'address', the location is Address, City and Country without spaces, joined by ',', and the stem is the address with '.' turned into '_' and spaces dropped |
| `FetchLoc.AddressStemClean` | data/StreetView_API/fetch_loc.py:41 | the address-mode stem holds neither '.' nor ' ' |
| `FetchLoc.RequestUrl` | data/StreetView_API/fetch_loc.py:49-50 | the URL is the base, then "&name=value" for key, size, location, radius, fov and heading in that order, then "&return_error_code" and its value with no '=' |
| `FetchLoc.RequestUrlShape` | data/StreetView_API/fetch_loc.py:5-50 | the query opens with "?&key=" and ends with "&return_error_codetrue" |
| `FetchLoc.NoPitchOrSource` | data/StreetView_API/fetch_loc.py:19-20 | neither pitch nor source is among the parameters sent, although both are defined |
| `FetchLoc.DiffersFromClientUrl` | data/StreetView_API/fetch_loc.py:49-50 | for every key and location, this URL differs from the one `client.py` builds |
| `FetchLoc.ConstructRequest` | data/StreetView_API/fetch_loc.py:48-65 | only the exact answer 'y' sends the request; when `response.ok` the body is written to save_dir + filename, unless the file name holds '/', which makes `open` raise; otherwise the response body is what gets printed; a transport error escapes the call |
| `FetchLoc.UpperCaseDeclines` | data/StreetView_API/fetch_loc.py:55-56 | an upper-case "Y" declines here, although `client.py` accepts it |
| `FetchLoc.RunRows` | data/StreetView_API/fetch_loc.py:24-30 | rows are handled in order up to the row limit, each outcome being that row's request; a failure means some row within the limit raised |
| `FetchLoc.AtMostOneRow` | data/StreetView_API/fetch_loc.py:13 | with n_addresses = 1 at most one row is ever requested |
| `FetchLoc.ReadSecrets` | data/StreetView_API/fetch_loc.py:69-75 | the key is line 2 and the secret line 4 of the secrets file, each a prefix of its line with only whitespace cut off the end; a missing line leaves its name unset |
| `FetchLoc.ReadSecretsRoundTrip` | data/StreetView_API/fetch_loc.py:69-75 | a file with the key and the secret on lines 2 and 4, each ending in a newline, gives back exactly that key and secret |
| `GenerateLoc.Line` | data/StreetView_API/generate_loc.py:19-23 | a printed line is the formatted latitude, a ',', then the formatted longitude |
| `GenerateLoc.LineRoundTrip` | data/StreetView_API/generate_loc.py:19-23 | splitting a printed line at its first ',' and deleting the '.' from each half gives back the two scaled integers |
| `GenerateLoc.Emitted` | data/StreetView_API/generate_loc.py:15-25 | the script prints the first min(3, len(lats)·len(lons)) lines of the latitude-major cross join, a prefix of the whole join |
| `GenerateLoc.EmittedFirstRow` | data/StreetView_API/generate_loc.py:16-25 | with at least three longitudes, the three lines pair the first latitude with the first three longitudes |
| `GenerateLoc.AxesShape` | data/StreetView_API/generate_loc.py:12-13 | latitudes step by 5000 and longitudes by 3000 from the lower corner, below the upper one: 30 and 88 values |
| `GenerateLoc.ScriptOutput` | data/StreetView_API/generate_loc.py:15-25 | the script prints min_lat paired with min_lon, min_lon + 3000 and min_lon + 6000 |
| `GenerateLoc.FirstLineText` | data/StreetView_API/generate_loc.py:19-23 | the first printed line is "37.946894,23.665374" |
| `AgenticMachine.ToolUrl` | source/agentic_machine.py:53-58 | the tool's URL is the `client.py` URL without pitch and source: key, size, location, radius, fov, heading, then return_error_code=true |
| `AgenticMachine.PitchIgnored` | source/agentic_machine.py:33-58 | the pitch argument has no effect on the URL |
| `AgenticMachine.SafeLocation` | source/agentic_machine.py:65 | every ',' and '.' of the location becomes '_', and every other character is kept, so the file stem holds neither |
| `AgenticMachine.ErrorText` | source/agentic_machine.py:72 | the error message contains "error" in any case |
| `AgenticMachine.FetchImageFromStreetView` | source/agentic_machine.py:49-72 | a transport error escapes; status 200 with a '/' in the location fails, because `open` targets a sub-directory of the_photos that nothing creates; status 200 otherwise saves the body to the_photos/streetview_<safe location>.jpg, with no further '/', and returns that path; any other status returns the error text |
| `AgenticMachine.CollapseSlashes` | source/agentic_machine.py:66-67 | pathlib's dropping of empty parts: the result has no "//", keeps the first character and every character other than '/', and leaves a string without "//" unchanged |
| `AgenticMachine.CollapseDouble` | source/agentic_machine.py:66-67 | doubling a '/' anywhere does not change the collapsed string; with the previous row this fixes its value: repeatedly replace "//" by "/" |
| `AgenticMachine.PhotoPath` | source/agentic_machine.py:66-67 | the path (the one saved to, or the one the `FileNotFoundError` names) is "the_photos/" followed by the photo name with repeated '/' collapsed: no "//", and the same characters other than '/'; a name without "//" is kept as it is |
| `AgenticMachine.DoubleSlashCollapses` | source/agentic_machine.py:66-67 | every location with "//" gets the same path as with a single '/' there |
| `AgenticMachine.OnlyTwoHundredSaves` | source/agentic_machine.py:64 | a 2xx status other than 200 (e.g. 204) is reported as an error |
| `AgenticMachine.SeparatorsForgotten` | source/agentic_machine.py:65-67 | locations that differ only in which of ',', '.' and '_' stands at some positions share a photo path |
| `AgenticMachine.PhotoPathCollision` | source/agentic_machine.py:65-67 | an example of the previous row: "37.9,23.7" and "37_9_23_7" share a photo path |
| `AgenticApp.GetPhotoPaths` | source/agentic_app.py:10-16 | the result holds exactly the outputs of the spans named "fetch_image_from_street_view", each once; a tool span without an output fails |
| `AgenticApp.ReportsError` | source/agentic_app.py:28 | the final text reports an error exactly when some five consecutive characters of it spell "error" in any mix of cases |
| `AgenticApp.QueryAgent` | source/agentic_app.py:28-30 | the final text is always passed through; the gallery is None exactly when the text contains "error" in any case, and otherwise holds the deduplicated paths |
| `AgenticApp.CapitalisedErrorReported` | source/agentic_app.py:28 | any text containing "Error" counts as an error report |
| `AgenticApp.ToolErrorReported` | source/agentic_app.py:28 | a final text that passes a tool's error message through always drops the gallery |
| `InteractRun.IntStep` | source/interact_run.py:20-28 | a blank line gives the default if there is one and asks again otherwise; a line holding any character other than whitespace, digits, '.', ',', '+' and '-' asks again (for the ASCII-digit parse of `Strings.ParseIntOfIntToString`; Python also accepts '_' between digits, see "Left out") |
| `InteractRun.TypedNumber` | source/interact_run.py:26 | a space-free line that reads as str(v) once its '.' and ',' are deleted is accepted as v |
| `InteractRun.FirstAccepted` | source/interact_run.py:19-28 | the prompt loop yields nothing exactly when every typed line asks again |
| `InteractRun.PromptForInt` | source/interact_run.py:8-28 | `prompt_for_int` returns the value of the first accepted line, after only rejected ones, and nothing exactly when every line is rejected; a blank first line returns the default when there is one |
| `InteractRun.FirstAcceptedIsFirst` | source/interact_run.py:19-28 | the value returned is the one the first accepted line gave, and every line before it was rejected |
| `InteractRun.TypedCoordinate` | source/interact_run.py:26 | typing a formatted coordinate, point included, reads back its scaled integer (e.g. "37.946894" gives 37946894) |
| `InteractRun.TypedWithCommas` | source/interact_run.py:26 | "23,665,374" reads as 23665374 |
| `InteractRun.MethodStep` | source/interact_run.py:49-60 | an accepted method is "random" or "even" |
| `InteractRun.MethodChoices` | source/interact_run.py:49-60 | a blank line or "1" chooses random, "2" chooses even, and anything else asks again |
| `InteractRun.PromptForMethod` | source/interact_run.py:49-60 | the method loop yields "random" or "even", nothing exactly when every line asks again, and "random" for a blank first line |
| `InteractRun.CheckCredentials` | source/interact_run.py:83-88 | the run continues exactly when both the stripped key and the stripped secret are non-empty |
| `InteractRun.TypedCredentialsWin` | source/interact_run.py:105-107 | typed credentials go into the environment, so `fetch_images` uses them ahead of any config file; this holds only if `API_KEY_ENV` and `API_SECRET_ENV`, which client.py imports from config.py but config.py never defines, are "STREETVIEW_API_KEY" and "STREETVIEW_API_SECRET" |
| `InteractRun.OrDefault` | source/interact_run.py:95-101 | a blank entry takes the default; any other entry is used stripped |
| `InteractRun.RequestParams` | source/interact_run.py:91-103 | each of size, fov, heading, radius and pitch is the stripped typed entry, or its default (640x640, 120, 0, 50, 10) when the entry is blank; source "default" and return_error_code "true" are fixed, so pitch is always sent and source never |
| `InteractRun.BlankEntriesGiveDefaults` | source/interact_run.py:92-103 | pressing Enter at every prompt reproduces the library's default parameters |
| `Strings.IntToString` | source/the_machine/locations/generator.py:60-61 | `str(i)` begins with '-' exactly for negative i, and every other character is a decimal digit |
| `Strings.ParseIntOfIntToString` | source/interact_run.py:26 | `int(str(i)) == i` |
| `Strings.LStrip` | source/interact_run.py:20 | `lstrip` removes exactly the leading whitespace |
| `Strings.RStrip` | data/StreetView_API/fetch_loc.py:72 | `rstrip` removes exactly the trailing whitespace |
| `Strings.Remove` | source/the_machine/locations/processor.py:19 | `replace(c, "")` leaves no c and never lengthens the string |
| `Strings.Replace` | source/the_machine/locations/processor.py:24 | `replace(c, d)` changes exactly the c's into d and keeps the length |
| `Strings.ToLower` | source/the_machine/api/client.py:70 | `lower()` maps each character to its lower-case form and keeps the length |
| `Strings.Take` | source/the_machine/locations/generator.py:63 | `s[:2]` is a prefix of s of length min(2, len(s)) |
| `Strings.JoinPath` | source/the_machine/api/client.py:108 | `os.path.join(dir, name)` ends with name, and starts with dir unless name is absolute; for a non-empty dir and a relative name, a '/' stands right before name and at most one character is added |
| `Strings.ContainsAt` | source/agentic_app.py:28 | `sub in s` holds exactly when sub occurs at some position of s |
| `Http.OkStatuses` | source/the_machine/api/client.py:73 | `response.ok` is false exactly when `raise_for_status` raises: 1xx to 3xx are ok, 4xx and 5xx are not (also data/StreetView_API/fetch_loc.py:58) |

## Left out

- HTTP, file writes, `mkdir` and `pd.read_csv`/`to_csv` are I/O. A reply is a
  `Transport` value; a table is a sequence of `LocationRecord`; a saved file is
  the path and bytes in the outcome.
- URL signing (HMAC-SHA1 and base64) lives in `the_machine/api/auth.py` and
  `data/StreetView_API/sign_request.py`. Neither is part of this model, so
  signing is an uninterpreted `Signer` applied to the assembled URL.
- Printing, the confirmation prompt and `input()` are not modelled as I/O. The
  answers are parameters, and running out of typed lines gives `None` where
  Python would raise `EOFError`.
- Generator.RandomlyGenerate: does not produce numpy's seeded values (seed 42).
  Each draw is any value in range, and `RandomChoiceIsComplete` shows that
  every in-range outcome is possible.
- Generator.FloorDivSqrt: exact. The float `range // n ** 0.5` can round
  differently for very large values. numpy's int64 bounds are not modelled.
- Generator.Isqrt: exact, like `FloorDivSqrt`. `int(n ** 0.5)` uses floats.
- Processor.GeneratedRowFileName: holds for the cell strings as the
  generator writes them. In the real program the table goes through
  `to_csv`/`read_csv` first, so a value ending in 0 (37.950000) comes back as
  37.95 and its file name is shorter; see the next line.
- Processor.PreprocessLocation: takes the lat and long cells as the strings
  the generator wrote. pandas reads them back as floats, and `str(float)` can
  drop trailing zeros (37.9500 prints as "37.95"); that conversion is not
  modelled.
- Strings.ParseIntOfIntToString: the parse covers an optional sign and ASCII
  digits, not Python's underscores or non-ASCII digits.
- Strings.ToLower: lowers ASCII letters only. No non-ASCII character lowers to
  one of the ASCII letters the code tests for, so the "y" and "error" checks
  are unaffected.
- `configparser` is modelled as a map of sections. Its case-insensitive keys
  and its DEFAULT section are not modelled.
- Client.FetchImages: `n_addresses` is an `Option<int>`. A value of another
  type, which makes Python raise a `TypeError` at the comparison, is not
  modelled.
- FetchLoc.RunRows: takes the key and secret as strings. When the secrets
  file has fewer than two or four lines, `fetch_loc.py` raises `NameError` for
  `key` or `secret` at the first request; `ReadSecrets` gives `None` there, and
  that `NameError` is not modelled.
- Client.FetchImageFromLocation: a '/' in the file name would make `open`
  raise a `FileNotFoundError` that the `RequestException` handler does not
  catch. Coordinate cells read by pandas are numbers, so their file names hold
  no '/'; this case is not modelled for `client.py`.
- A `sign_url` that raises is not modelled: `Signer` is a total function, so
  the signing step in `client.py`, `fetch_loc.py` and `agentic_machine.py`
  never fails here.
- AgenticMachine.FetchImageFromStreetView: the key and secret are plain
  strings. The case where `get_credentials` returns `None` is not modelled.
  The signed URL the tool requests is not part of its result.
- Import resolution is not modelled. `client.py` imports `API_KEY_ENV` and
  `API_SECRET_ENV`, which `config.py` does not define. `agentic_machine.py`
  imports `get_credentials`, but `client.py` defines `_get_credentials`. The
  environment values are parameters instead.
- AgenticApp.GetPhotoPaths: `list(set(paths))` has no defined order. The model
  keeps first occurrences, and its contract promises only the set and the
  absence of duplicates.
- The agent framework, the LLM instructions, the gradio UI and the asyncio
  event loop of `agentic_machine.py` and `agentic_app.py` are not modelled.
- `sys.exit` after a failed `create_locations` or a failed fetch in
  `interact_run.py` is not modelled; those failures are the `Failure` values of
  the models of `create_locations` and `fetch_images`.
- `source/auto_run.py` and `data/StreetView_API/run.py` are not modelled. They
  are glue, and `run.py` imports functions the shown scripts do not define.
- `DEFAULT_CONFIG_DIR`, `DEFAULT_CONFIG_FILE` and `DEFAULT_SAVE_DIR` depend on
  the home and working directories. The save directory and the config file's
  contents are parameters.

=== FILE: agentic_app.dfy ===
/** The pure part of `source/agentic_app.py`: collecting photo paths from an
    agent trace, and hiding the gallery when the agent reports an error. */
module AgenticApp {
  import opened Base
  import opened Strings
  import AgenticMachine

  const ToolName: string := "fetch_image_from_street_view"
  const OutputKey: string := "output.value"

  /** One span of an agent trace: its name and its attributes. */
  datatype Span = Span(name: string, attributes: map<string, string>)

  /** A span recording a call of the Street View tool. */
  predicate IsToolCall(s: Span) {
    s.name == ToolName
  }

  /** Some tool call in `spans` lacks its output attribute: indexing it raises KeyError. */
  predicate MissingOutput(spans: seq<Span>) {
    exists i :: 0 <= i < |spans| && IsToolCall(spans[i]) && OutputKey !in spans[i].attributes
  }

  /** x is the recorded output of some tool call in `spans`. */
  predicate IsToolOutput(spans: seq<Span>, x: string) {
    exists i :: 0 <= i < |spans| && IsToolCall(spans[i]) && OutputKey in spans[i].attributes
      && spans[i].attributes[OutputKey] == x
  }

  predicate NoDuplicates(s: seq<string>) {
    forall i, j :: 0 <= i < j < |s| ==> s[i] != s[j]
  }

  /** `_get_photo_paths_from_agent_trace`: the outputs of the tool's spans,
      each once. `list(set(...))` fixes no order; this model keeps first
      occurrences, and its contract promises only the set. */
  method GetPhotoPaths(spans: seq<Span>) returns (r: Result<seq<string>, string>)
    ensures r.Failure? <==> MissingOutput(spans)
    ensures r.Success? ==> NoDuplicates(r.value)
    ensures r.Success? ==> forall x :: x in r.value <==> IsToolOutput(spans, x)
  {
    var paths: seq<string> := [];
    var i := 0;
    while i < |spans|
      invariant 0 <= i <= |spans|
      invariant !MissingOutput(spans[..i])
      invariant NoDuplicates(paths)
      invariant forall x :: x in paths <==> IsToolOutput(spans[..i], x)
    {
      var s := spans[i];
      assert spans[..i + 1] == spans[..i] + [s];
      if IsToolCall(s) {
        if OutputKey !in s.attributes {
          assert MissingOutput(spans) by {
            assert IsToolCall(spans[i]) && OutputKey !in spans[i].attributes;
          }
          return Failure("KeyError: " + OutputKey);
        }
        var x := s.attributes[OutputKey];
        if x !in paths {
          paths := paths + [x];
        }
      }
      i := i + 1;
    }
    assert spans[..i] == spans;
    return Success(paths);
  }

  /** `"error" in final_output.lower()`. */
  function ReportsError(finalOutput: string): (b: bool)
    ensures b <==> exists i :: ErrorAt(finalOutput, i)
  {
    var lower := ToLower(finalOutput);
    ContainsAt(lower, "error");
    forall i | 0 <= i <= |finalOutput| - 5
      ensures OccursAt(lower, "error", i) <==> ErrorAt(finalOutput, i)
    {
      assert lower[i..i + 5] == ToLower(finalOutput[i..i + 5]);
    }
    Contains(lower, "error")
  }

  /** The five characters at position i spell "error" in some mix of cases. */
  predicate ErrorAt(s: string, i: int) {
    0 <= i <= |s| - 5 && ToLower(s[i..i + 5]) == "error"
  }

  /** `query_agent` once the agent has run: the gallery and the status text. */
  method QueryAgent(finalOutput: string, spans: seq<Span>)
    returns (r: Result<(Option<seq<string>>, string), string>)
    ensures r.Success? ==> r.value.1 == finalOutput
    ensures r.Success? ==> (r.value.0.None? <==> ReportsError(finalOutput))
    ensures r.Failure? <==> !ReportsError(finalOutput) && MissingOutput(spans)
    ensures r.Success? && r.value.0.Some? ==>
      NoDuplicates(r.value.0.value) && forall x :: x in r.value.0.value <==> IsToolOutput(spans, x)
  {
    if ReportsError(finalOutput) {
      return Success((None, finalOutput));
    }
    var paths := GetPhotoPaths(spans);
    if paths.Failure? {
      return Failure(paths.error);
    }
    return Success((Some(paths.value), finalOutput));
  }

  /** The check ignores case: any text with "Error" inside reports an error. */
  lemma CapitalisedErrorReported(a: string, b: string)
    ensures ReportsError(a + "Error" + b)
  {
    ToLowerConcat(a + "Error", b);
    ToLowerConcat(a, "Error");
    assert ToLower("Error") == "error" by {
      assert ToLower("Error")[0] == LowerChar('E') == 'e';
    }
    assert Contains("error", "error");
    ContainsExtend(ToLower(a), "error", ToLower(b), "error");
  }

  /** When the agent passes a tool's error text through, the gallery is dropped. */
  lemma ToolErrorReported(a: string, status: int, text: string, b: string)
    ensures ReportsError(a + AgenticMachine.ErrorText(status, text) + b)
  {
    var e := AgenticMachine.ErrorText(status, text);
    ToLowerConcat(a + e, b);
    ToLowerConcat(a, e);
    ContainsExtend(ToLower(a), ToLower(e), ToLower(b), "error");
  }
}

=== FILE: agentic_machine.dfy ===
/** The agent tool `fetch_image_from_street_view` of `source/agentic_machine.py`:
    its request URL, the name of the saved photo and the text it hands back. */
module AgenticMachine {
  import opened Base
  import opened Strings
  import opened Records
  import opened Http
  import Config
  import Client

  const PhotoDir: string := "the_photos"

  /** The parameters the tool sends; the integer ones printed with `str`. */
  function ToolPairs(key: string, location: string, size: string, fov: int, heading: int, radius: int)
    : seq<(string, string)>
  {
    [("key", key), ("size", size), ("location", location), ("radius", IntToString(radius)),
     ("fov", IntToString(fov)), ("heading", IntToString(heading)), ("return_error_code", "true")]
  }

  /** The unsigned URL. `pitch` is accepted but not sent. */
  function ToolUrl(key: string, location: string, size: string, fov: int, heading: int, pitch: int, radius: int)
    : (u: string)
    ensures u == Client.RequestUrl(key, location,
      ApiParams(None, size, IntToString(fov), IntToString(heading), IntToString(radius), None, None, "true"))
  {
    var params := ApiParams(None, size, IntToString(fov), IntToString(heading), IntToString(radius), None, None, "true");
    var ps := Client.RequestPairs(key, location, params);
    assert ps == ps[..7];
    Config.StreetViewApiUrl + "?" + Query(ToolPairs(key, location, size, fov, heading, radius))
  }

  /** The pitch argument has no effect on the request. */
  lemma PitchIgnored(key: string, location: string, size: string, fov: int, heading: int, radius: int, p1: int, p2: int)
    ensures ToolUrl(key, location, size, fov, heading, p1, radius) == ToolUrl(key, location, size, fov, heading, p2, radius)
  {
  }

  /** `location.replace(",", "_").replace(".", "_")`. */
  function SafeLocation(location: string): (s: string)
    ensures |s| == |location|
    ensures forall i :: 0 <= i < |s| ==> s[i] == if location[i] in {',', '.'} then '_' else location[i]
    ensures ',' !in s && '.' !in s
  {
    Replace(Replace(location, ',', '_'), '.', '_')
  }

  /** No two '/' in a row: the path has no empty component. */
  predicate NoDoubleSlash(p: string) {
    forall i :: 0 <= i < |p| - 1 ==> !(p[i] == '/' && p[i + 1] == '/')
  }

  /** s with every '/' that follows another '/' dropped: what pathlib makes of a
      relative name that neither starts nor ends with '/' and has no "." part. */
  function CollapseSlashes(s: string): (r: string)
    ensures |s| > 0 ==> |r| > 0 && r[0] == s[0]
    ensures NoDoubleSlash(r)
    ensures NoDoubleSlash(s) ==> r == s
    ensures Remove(r, '/') == Remove(s, '/')
    ensures |r| <= |s|
  {
    if |s| <= 1 then s
    else if s[0] == '/' && s[1] == '/' then
      CollapseSlashes(s[1..])
    else
      var t := s[1..];
      var rest := CollapseSlashes(t);
      var r := [s[0]] + rest;
      assert r[1..] == rest;
      assert forall i :: 0 <= i < |r| - 1 ==> !(r[i] == '/' && r[i + 1] == '/') by {
        forall i | 0 <= i < |r| - 1
          ensures !(r[i] == '/' && r[i + 1] == '/')
        {
          if i > 0 {
            assert r[i] == rest[i - 1] && r[i + 1] == rest[i];
          }
        }
      }
      assert NoDoubleSlash(s) ==> NoDoubleSlash(t) by {
        if NoDoubleSlash(s) {
          assert forall i :: 0 <= i < |t| ==> t[i] == s[i + 1];
        }
      }
      r
  }

  /** Collapsing does not care whether a '/' was doubled. */
  lemma {:induction false} CollapseDouble(a: string, b: string)
    ensures CollapseSlashes(a + "//" + b) == CollapseSlashes(a + "/" + b)
  {
    if |a| == 0 {
      assert a + "//" + b == "/" + ("/" + b);
      assert a + "/" + b == "/" + b;
      assert ("/" + ("/" + b))[1..] == "/" + b;
    } else {
      var s1 := a + "//" + b;
      var s2 := a + "/" + b;
      assert s1[1..] == a[1..] + "//" + b;
      assert s2[1..] == a[1..] + "/" + b;
      assert s1[0] == s2[0] == a[0];
      assert s1[1] == s2[1];
      CollapseDouble(a[1..], b);
    }
  }

  /** The photo's file name, `f"streetview_{location}.jpg"` with the location made safe. */
  function PhotoName(location: string): string {
    "streetview_" + SafeLocation(location) + ".jpg"
  }

  /** `str(Path("the_photos") / name)`. The name starts with 's' and ends with
      'g', and `SafeLocation` leaves no '.', so of pathlib's rules only the one
      dropping empty parts applies: a repeated '/' collapses. */
  function PhotoPath(location: string): (p: string)
    ensures |p| > |PhotoDir| + 1
    ensures p[..|PhotoDir| + 1] == PhotoDir + "/"
    ensures NoDoubleSlash(p)
    ensures Remove(p[|PhotoDir| + 1..], '/') == Remove(PhotoName(location), '/')
    ensures NoDoubleSlash(PhotoName(location)) ==> p == PhotoDir + "/" + PhotoName(location)
  {
    var name := PhotoName(location);
    assert name[0] == 's';
    var tail := CollapseSlashes(name);
    UnderDir(PhotoDir, tail);
    PhotoDir + "/" + tail
  }

  /** A directory without '/' followed by a path that neither starts with '/'
      nor holds "//". */
  lemma UnderDir(dir: string, tail: string)
    requires '/' !in dir && |tail| > 0 && tail[0] != '/' && NoDoubleSlash(tail)
    ensures var p := dir + "/" + tail;
      && |p| > |dir| + 1 && p[..|dir| + 1] == dir + "/" && p[|dir| + 1..] == tail && NoDoubleSlash(p)
  {
    var p := dir + "/" + tail;
    forall i | 0 <= i < |p| - 1
      ensures !(p[i] == '/' && p[i + 1] == '/')
    {
      if i > |dir| {
        assert p[i] == tail[i - |dir| - 1] && p[i + 1] == tail[i - |dir|];
      } else if i == |dir| {
        assert p[i + 1] == tail[0];
      } else {
        assert p[i] == dir[i];
      }
    }
  }

  lemma SafeConcat(x: string, y: string)
    ensures SafeLocation(x + y) == SafeLocation(x) + SafeLocation(y)
  {
    assert forall i :: 0 <= i < |x + y| ==> SafeLocation(x + y)[i] == (SafeLocation(x) + SafeLocation(y))[i];
  }

  /** Replacing ',' and '.' leaves a run of '/' alone, wherever it stands. */
  lemma NameAround(a: string, sep: string, b: string)
    requires forall i :: 0 <= i < |sep| ==> sep[i] == '/'
    ensures PhotoName(a + sep + b) == "streetview_" + SafeLocation(a) + sep + (SafeLocation(b) + ".jpg")
  {
    SafeConcat(a + sep, b);
    SafeConcat(a, sep);
    assert SafeLocation(sep) == sep;
  }

  /** A location holding "//" gets the same photo path as with a single '/'. */
  lemma DoubleSlashCollapses(a: string, b: string)
    ensures PhotoPath(a + "//" + b) == PhotoPath(a + "/" + b)
  {
    var x := "streetview_" + SafeLocation(a);
    var y := SafeLocation(b) + ".jpg";
    NameAround(a, "/", b);
    NameAround(a, "//", b);
    CollapseDouble(x, y);
  }

  /** `f"Error when fetching image: {status} - {text}"`. */
  function ErrorText(status: int, text: string): (e: string)
    ensures Contains(ToLower(e), "error")
  {
    var e := "Error when fetching image: " + IntToString(status) + " - " + text;
    assert e[..5] == "Error";
    StartsWithError(e);
    e
  }

  /** A text that begins with "Error" contains "error" once lower-cased. */
  lemma StartsWithError(s: string)
    requires |s| >= 5 && s[..5] == "Error"
    ensures Contains(ToLower(s), "error")
  {
    var word := s[..5];
    assert s == word + s[5..];
    ToLowerConcat(word, s[5..]);
    LowerError(word);
    ContainsPrefix(ToLower(s), "error");
  }

  lemma LowerError(word: string)
    requires word == "Error"
    ensures ToLower(word) == "error"
  {
    var l := ToLower(word);
    assert l[0] == LowerChar('E') == 'e';
    assert l[1] == 'r' && l[2] == 'r' && l[3] == 'o' && l[4] == 'r';
  }

  /** What the tool did: saved the photo, or described the failure. */
  datatype ToolOutput =
    | Saved(path: string, content: Bytes)
    | Refused(message: string)
  {
    /** The string the tool returns to the agent. */
    function Text(): string {
      match this
      case Saved(path, _) => path
      case Refused(message) => message
    }
  }

  /** `fetch_image_from_street_view` once `requests.get` on the signed URL has
      given `reply`; a `RequestException` is not caught and is the Failure case.
      Only "the_photos" is created, so a '/' in the location, which puts the
      photo into a sub-directory of it, makes `open` raise `FileNotFoundError`,
      which escapes the tool as well. */
  function FetchImageFromStreetView(location: string, size: string, fov: int, heading: int, pitch: int,
                                    radius: int, key: string, secret: string, reply: Transport)
    : (r: Result<ToolOutput, string>)
    ensures r.Failure? <==>
      reply.TransportError? || (reply.response.status == 200 && '/' in location)
    ensures r.Success? ==> (r.value.Saved? <==> reply.response.status == 200)
    ensures r.Success? && r.value.Saved? ==>
      r.value.path == PhotoDir + "/" + PhotoName(location) && r.value.content == reply.response.content
    ensures r.Success? && r.value.Saved? ==> '/' !in r.value.path[|PhotoDir| + 1..]
    ensures r.Success? && r.value.Refused? ==>
      r.value.message == ErrorText(reply.response.status, reply.response.text)
      && Contains(ToLower(r.value.Text()), "error")
  {
    match reply
    case TransportError(reason) => Failure(reason)
    case Delivered(response) =>
      if response.status != 200 then Success(Refused(ErrorText(response.status, response.text)))
      else if '/' in location then Failure(NoSuchFile(PhotoPath(location)))
      else
        NameWithoutSlash(location);
        Success(Saved(PhotoPath(location), response.content))
  }

  /** A location without '/' gives a photo name without '/'. */
  lemma NameWithoutSlash(location: string)
    requires '/' !in location
    ensures '/' !in PhotoName(location)
    ensures PhotoPath(location)[|PhotoDir| + 1..] == PhotoName(location)
  {
    var name := PhotoName(location);
    assert forall i :: 0 <= i < |location| ==> SafeLocation(location)[i] != '/';
    assert forall i :: 0 <= i < |name| ==> name[i] != '/';
    assert NoDoubleSlash(name);
  }

  /** Any 2xx code other than 200 is reported as an error too. */
  lemma OnlyTwoHundredSaves(location: string, size: string, fov: int, heading: int, pitch: int,
                            radius: int, key: string, secret: string, content: Bytes, text: string)
    ensures FetchImageFromStreetView(location, size, fov, heading, pitch, radius, key, secret,
              Delivered(Response(204, content, text))).value.Refused?
  {
  }

  /** Two locations that differ only in where they put ',', '.' and '_' share a
      photo path: the replacement forgets which of the three was there. */
  lemma SeparatorsForgotten(l1: string, l2: string)
    requires |l1| == |l2|
    requires forall i :: 0 <= i < |l1| ==> l1[i] == l2[i] || (l1[i] in {',', '.', '_'} && l2[i] in {',', '.', '_'})
    ensures PhotoPath(l1) == PhotoPath(l2)
  {
    assert SafeLocation(l1) == SafeLocation(l2) by {
      assert forall i :: 0 <= i < |l1| ==> SafeLocation(l1)[i] == SafeLocation(l2)[i];
    }
  }

  /** For example "37.9,23.7" and "37_9_23_7". */
  lemma PhotoPathCollision(dotted: string, underscored: string)
    requires dotted == "37.9,23.7" && underscored == "37_9_23_7"
    ensures PhotoPath(dotted) == PhotoPath(underscored)
  {
    assert forall i :: 0 <= i < |dotted| ==>
      dotted[i] == underscored[i] || (dotted[i] in {',', '.', '_'} && underscored[i] in {',', '.', '_'});
    SeparatorsForgotten(dotted, underscored);
  }
}

=== FILE: base.dfy ===
/** Small failure-carrying datatypes shared by every module of the model.
    `Option` stands for Python's `None`-or-value, `Result` for a call that either
    returns or raises. */
module Base {

  datatype Option<+T> = None | Some(value: T) {
    /** Python's `d.get(k, default)` once the lookup is done. */
    function GetOr(default: T): T {
      match this
      case Some(v) => v
      case None => default
    }
  }

  datatype Result<+T, +E> = Success(value: T) | Failure(error: E)

  /** Raw bytes of an HTTP body or a written file. */
  type Bytes = seq<bv8>

  /** The text of the `FileNotFoundError` that `open(path, "wb")` raises when a
      directory on the path does not exist; the path is shown with its quotes. */
  function NoSuchFile(path: string): string {
    "[Errno 2] No such file or directory: '" + path + "'"
  }
}

=== FILE: client.dfy ===
/** `the_machine/api/client.py`: choosing credentials, assembling and confirming
    one Street View request, and the row-limit loop over the location table. */
module Client {
  import opened Base
  import opened Strings
  import opened Records
  import opened Http
  import Config
  import Processor

  /** Python truthiness of a value read with `.get`: present and non-empty. */
  predicate Truthy(o: Option<string>) {
    o.Some? && |o.value| > 0
  }

  /** A parsed `config.ini`: section name to the section's key/value pairs. */
  type ConfigFile = map<string, map<string, string>>

  function Lookup(section: map<string, string>, name: string): Option<string> {
    if name in section then Some(section[name]) else None
  }

  /** `_get_credentials`: the environment pair when both halves are non-empty,
      else the `[credentials]` section of the config file when the file exists
      and has one, else (None, None). `configFile` is None when the file does not exist. */
  function GetCredentials(envKey: Option<string>, envSecret: Option<string>, configFile: Option<ConfigFile>)
    : (c: (Option<string>, Option<string>))
    ensures Truthy(envKey) && Truthy(envSecret) ==> c == (envKey, envSecret)
    ensures !(Truthy(envKey) && Truthy(envSecret)) ==>
      if configFile.Some? && "credentials" in configFile.value then
        c == (Lookup(configFile.value["credentials"], "key"), Lookup(configFile.value["credentials"], "secret"))
      else
        c == (None, None)
  {
    if Truthy(envKey) && Truthy(envSecret) then (envKey, envSecret)
    else if configFile.Some? && "credentials" in configFile.value then
      var section := configFile.value["credentials"];
      (Lookup(section, "key"), Lookup(section, "secret"))
    else (None, None)
  }

  /** Key and secret always come from the same place: both from the environment,
      both from the config file, or neither. */
  lemma CredentialsNeverMixed(envKey: Option<string>, envSecret: Option<string>, configFile: Option<ConfigFile>)
    ensures var c := GetCredentials(envKey, envSecret, configFile);
      || c == (envKey, envSecret)
      || (configFile.Some? && "credentials" in configFile.value &&
          c == (Lookup(configFile.value["credentials"], "key"), Lookup(configFile.value["credentials"], "secret")))
      || c == (None, None)
    ensures var c := GetCredentials(envKey, envSecret, configFile);
      c.0 == envKey && Truthy(envKey) && !Truthy(envSecret) ==>
        configFile.Some? && "credentials" in configFile.value &&
        Lookup(configFile.value["credentials"], "key") == envKey
  {
  }

  /** `source` is sent only when it is set, non-empty and not "default". */
  predicate SendsSource(params: ApiParams) {
    Truthy(params.source) && params.source.value != "default"
  }

  /** `pitch` is sent whenever it is set and non-empty. */
  predicate SendsPitch(params: ApiParams) {
    Truthy(params.pitch)
  }

  /** The seven parameters every request carries, in their fixed order. */
  function RequiredPairs(key: string, location: string, params: ApiParams): seq<(string, string)> {
    [("key", key), ("size", params.size), ("location", location), ("radius", params.radius),
     ("fov", params.fov), ("heading", params.heading), ("return_error_code", params.returnErrorCode)]
  }

  /** The query parameters of `fetch_image_from_location`, in the order the URL lists them. */
  function RequestPairs(key: string, location: string, params: ApiParams): (r: seq<(string, string)>)
    ensures |r| == 7 + (if SendsSource(params) then 1 else 0) + (if SendsPitch(params) then 1 else 0)
    ensures r[..7] == RequiredPairs(key, location, params)
    ensures (exists i :: 7 <= i < |r| && r[i].0 == "source") <==> SendsSource(params)
    ensures (exists i :: 7 <= i < |r| && r[i].0 == "pitch") <==> SendsPitch(params)
    ensures SendsPitch(params) ==> r[|r| - 1] == ("pitch", params.pitch.value)
    ensures SendsSource(params) ==> r[7] == ("source", params.source.value)
  {
    var source := if SendsSource(params) then [("source", params.source.value)] else [];
    var pitch := if SendsPitch(params) then [("pitch", params.pitch.value)] else [];
    var r := RequiredPairs(key, location, params) + source + pitch;
    assert SendsSource(params) ==> r[7] == source[0];
    assert SendsPitch(params) ==> r[|r| - 1] == pitch[0];
    assert forall i :: 7 <= i < |r| ==>
      (r[i].0 == "source" ==> SendsSource(params)) && (r[i].0 == "pitch" ==> SendsPitch(params));
    r
  }

  /** The unsigned request URL. */
  function RequestUrl(key: string, location: string, params: ApiParams): (u: string)
    ensures Config.StreetViewApiUrl + "?" + Param(("key", key)) + Amp(("size", params.size)) <= u
    ensures SendsPitch(params) ==>
      var tail := Amp(("pitch", params.pitch.value));
      |tail| <= |u| && u[|u| - |tail|..] == tail
  {
    var ps := RequestPairs(key, location, params);
    assert ps[0] == ("key", key) && ps[1] == ("size", params.size);
    UrlShape(Config.StreetViewApiUrl, ps);
    Config.StreetViewApiUrl + "?" + Query(ps)
  }

  /** The URL is the base, '?', and then key, size, location, radius, fov,
      heading and return_error_code in that order, followed by the optional parameters. */
  lemma RequestUrlText(key: string, location: string, params: ApiParams)
    ensures var ps := RequestPairs(key, location, params);
      RequestUrl(key, location, params) ==
        Config.StreetViewApiUrl + "?" + (Param(("key", key)) + (Amp(("size", params.size))
        + (Amp(("location", location)) + (Amp(("radius", params.radius)) + (Amp(("fov", params.fov))
        + (Amp(("heading", params.heading)) + (Amp(("return_error_code", params.returnErrorCode))
        + AmpParams(ps[7..]))))))))
  {
    var ps := RequestPairs(key, location, params);
    var req := RequiredPairs(key, location, params);
    assert ps[..7] == req;
    forall i | 1 <= i < 7
      ensures AmpParams(ps[i..]) == Amp(req[i]) + AmpParams(ps[i + 1..])
    {
      assert ps[i..][0] == ps[..7][i];
      assert ps[i..][1..] == ps[i + 1..];
    }
    var t7 := AmpParams(ps[7..]);
    var t6 := Amp(req[6]) + t7;
    assert AmpParams(ps[6..]) == t6;
    var t5 := Amp(req[5]) + t6;
    assert AmpParams(ps[5..]) == t5;
    var t4 := Amp(req[4]) + t5;
    assert AmpParams(ps[4..]) == t4;
    var t3 := Amp(req[3]) + t4;
    assert AmpParams(ps[3..]) == t3;
    var t2 := Amp(req[2]) + t3;
    assert AmpParams(ps[2..]) == t2;
    var t1 := Amp(req[1]) + t2;
    assert AmpParams(ps[1..]) == t1;
    assert Query(ps) == Param(req[0]) + t1;
  }

  /** With the default parameters the URL carries the seven required pairs and
      then `pitch=10`; `source=default` is never sent. */
  lemma DefaultRequestPairs(key: string, location: string)
    ensures RequestPairs(key, location, Config.DefaultApiParams) ==
      RequiredPairs(key, location, Config.DefaultApiParams) + [("pitch", "10")]
  {
    var ps := RequestPairs(key, location, Config.DefaultApiParams);
    assert ps[..7] == RequiredPairs(key, location, Config.DefaultApiParams);
    assert !SendsSource(Config.DefaultApiParams);
    assert ps == ps[..7] + [ps[7]];
  }

  /** `ans.lower() == "y"`. */
  predicate Confirmed(answer: string) {
    ToLower(answer) == "y"
  }

  /** Exactly the answers "y" and "Y" send a request. */
  lemma ConfirmedAnswers(answer: string)
    ensures Confirmed(answer) <==> answer == "y" || answer == "Y"
  {
    if Confirmed(answer) {
      assert |answer| == 1 && LowerChar(answer[0]) == 'y';
      assert answer == [answer[0]];
    }
  }

  /** What one call of `fetch_image_from_location` did. */
  datatype RowOutcome =
    | Declined(url: string)                                // the user did not confirm
    | Saved(url: string, path: string, content: Bytes)      // the body was written to `path`
    | Failed(url: string, reason: string)                   // a RequestException was caught and printed

  /** `fetch_image_from_location`: signs the URL, asks for confirmation and, if
      given, fetches and saves. `reply` stands for `requests.get` on the signed URL. */
  function FetchImageFromLocation(location: string, key: string, secret: string, params: ApiParams,
                                  filename: string, sign: Signer, answer: string, reply: Transport)
    : (o: RowOutcome)
    ensures o.url == sign(RequestUrl(key, location, params), secret)
    ensures o.Declined? <==> !Confirmed(answer)
    ensures o.Saved? <==> Confirmed(answer) && reply.Delivered? && !RaisesForStatus(reply.response.status)
    ensures o.Saved? ==> o.path == filename && o.content == reply.response.content
  {
    var url := sign(RequestUrl(key, location, params), secret);
    if !Confirmed(answer) then Declined(url)
    else match reply
      case TransportError(reason) => Failed(url, reason)
      case Delivered(response) =>
        if RaisesForStatus(response.status) then Failed(url, "HTTP status " + IntToString(response.status))
        else Saved(url, filename, response.content)
  }

  /** How many rows the loop of `fetch_images` handles for a table of n rows:
      at least one (the test comes after the row), at most `limit`, never more than n. */
  function Attempted(n: nat, limit: int): (k: nat)
    ensures k <= n
    ensures n > 0 ==> 1 <= k
    ensures limit >= 1 ==> k <= limit
  {
    if n == 0 then 0 else if limit <= 1 then 1 else if limit < n then limit else n
  }

  lemma DefaultLimitIsOneRow(n: nat)
    requires n > 0
    ensures Attempted(n, Config.DefaultApiParams.nAddresses.GetOr(1)) == 1
  {
  }

  /** The request for row `index` of the table. */
  function RowRequest(index: nat, item: LocationRecord, key: string, secret: string, params: ApiParams,
                      saveDir: string, sign: Signer, answer: string, reply: Transport): RowOutcome
  {
    var (location, filename) := Processor.PreprocessLocation(index, item);
    FetchImageFromLocation(location, key, secret, params, JoinPath(saveDir, filename), sign, answer, reply)
  }

  /** Row `i` of the table with the user's answer and the reply for that row's signed URL. */
  function TableRow(table: seq<LocationRecord>, i: nat, key: string, secret: string, params: ApiParams,
                    saveDir: string, sign: Signer, answers: nat -> string, replies: (nat, string) -> Transport)
    : RowOutcome
    requires i < |table|
  {
    var url := sign(RequestUrl(key, Processor.PreprocessLocation(i, table[i]).0, params), secret);
    RowRequest(i, table[i], key, secret, params, saveDir, sign, answers(i), replies(i, url))
  }

  datatype BatchResult =
    | CredentialsMissing              // returned before creating the directory or reading the table
    | Processed(outcomes: seq<RowOutcome>)

  /** `fetch_images`. `answers(i)` is what the user types for row i and
      `replies(i, url)` what `requests.get(url)` gives for it. */
  method FetchImages(table: seq<LocationRecord>, params: ApiParams, saveDir: string,
                     envKey: Option<string>, envSecret: Option<string>, configFile: Option<ConfigFile>,
                     sign: Signer, answers: nat -> string, replies: (nat, string) -> Transport)
    returns (r: BatchResult)
    ensures var c := GetCredentials(envKey, envSecret, configFile);
      r.CredentialsMissing? <==> !(Truthy(c.0) && Truthy(c.1))
    ensures r.Processed? ==> |r.outcomes| == Attempted(|table|, params.nAddresses.GetOr(1))
    ensures r.Processed? ==>
      var c := GetCredentials(envKey, envSecret, configFile);
      forall i :: 0 <= i < |r.outcomes| ==>
        r.outcomes[i] == TableRow(table, i, c.0.value, c.1.value, params, saveDir, sign, answers, replies)
  {
    var (key, secret) := GetCredentials(envKey, envSecret, configFile);
    if !(Truthy(key) && Truthy(secret)) {
      return CredentialsMissing;
    }
    var outcomes := FetchRows(table, key.value, secret.value, params, saveDir, sign, answers, replies);
    return Processed(outcomes);
  }

  /** The loop of `fetch_images` over the first n rows: row i is handled, then
      the loop stops if i + 1 >= limit. */
  method ProcessRows<T>(n: nat, limit: int, row: nat --> T) returns (outcomes: seq<T>)
    requires forall i :: 0 <= i < n ==> row.requires(i)
    ensures |outcomes| == Attempted(n, limit)
    ensures forall i :: 0 <= i < |outcomes| ==> outcomes[i] == row(i)
  {
    outcomes := [];
    var i := 0;
    while i < n
      invariant 0 <= i <= n
      invariant |outcomes| == i
      invariant i == 0 || i < limit
      invariant forall k :: 0 <= k < i ==> outcomes[k] == row(k)
    {
      outcomes := outcomes + [row(i)];
      if i + 1 >= limit {
        AttemptedAtBreak(n, limit, i);
        return;
      }
      i := i + 1;
    }
    AttemptedAtEnd(n, limit);
  }

  /** The rows `fetch_images` handles once the credentials are known. */
  method FetchRows(table: seq<LocationRecord>, key: string, secret: string, params: ApiParams, saveDir: string,
                   sign: Signer, answers: nat -> string, replies: (nat, string) -> Transport)
    returns (outcomes: seq<RowOutcome>)
    ensures |outcomes| == Attempted(|table|, params.nAddresses.GetOr(1))
    ensures forall i :: 0 <= i < |outcomes| ==>
      outcomes[i] == TableRow(table, i, key, secret, params, saveDir, sign, answers, replies)
  {
    outcomes := ProcessRows(|table|, params.nAddresses.GetOr(1),
      (i: nat) requires i < |table| => TableRow(table, i, key, secret, params, saveDir, sign, answers, replies));
  }

  /** Breaking after row i, the first row past the limit, handles Attempted rows. */
  lemma AttemptedAtBreak(n: nat, limit: int, i: nat)
    requires i < n && i + 1 >= limit && (i == 0 || i < limit)
    ensures Attempted(n, limit) == i + 1
  {
  }

  /** Running off the end of the table without reaching the limit handles every row. */
  lemma AttemptedAtEnd(n: nat, limit: int)
    requires n == 0 || n < limit
    ensures Attempted(n, limit) == n
  {
  }
}

=== FILE: config.dfy ===
/** The constants of `the_machine/config.py`. */
module Config {
  import opened Base
  import opened Records

  const StreetViewApiUrl: string := "https://maps.googleapis.com/maps/api/streetview"

  /** Selects the coordinate branch of `preprocess_location`. */
  const DefaultLocationType: string := "coordinates"

  const DefaultInputFile: string := "athens_random.csv"

  const DefaultApiParams: ApiParams := ApiParams(
    nAddresses := Some(1),
    size := "640x640",
    fov := "120",
    heading := "0",
    radius := "50",
    pitch := Some("10"),
    source := Some("default"),
    returnErrorCode := "true")

  /** A box inside Athens. */
  const DefaultBox: BoundingBox := BoundingBox(37946894, 38092677, 23665374, 23926643)

  const DefaultLocationParams: LocationParams := LocationParams(DefaultBox, "random", 10)
}

=== FILE: fetch_loc.dfy ===
/** `data/StreetView_API/fetch_loc.py`, the older stand-alone fetcher: module-level
    settings, an address-mode copy of `preprocess_location`, a hand-concatenated
    request URL, a case-sensitive confirmation and a one-row loop. */
module FetchLoc {
  import opened Base
  import opened Strings
  import opened Records
  import opened Http
  import Processor
  import Client

  /** The base already ends in '?'. */
  const BaseUrl: string := "https://maps.googleapis.com/maps/api/streetview?"
  const LocationType: string := "address"
  const SaveDir: string := "streetviews/test/"
  const NAddresses: int := 1
  const Size: string := "640x640"
  const Fov: string := "120"
  const Heading: string := "0"
  const Radius: string := "50"
  const Pitch: string := "10"
  const Source: string := "default"
  const ReturnErrorCode: string := "true"

  /** `preprocess_location` under this module's `location_type = 'address'`. */
  function PreprocessLocation(index: int, item: LocationRecord): (r: (string, string))
    ensures r.0 == Remove(item.address, ' ') + "," + Remove(item.city, ' ') + "," + Remove(item.country, ' ')
    ensures ' ' !in r.0
    ensures r.1 == Processor.FileName(index, Remove(Replace(item.address, '.', '_'), ' '))
  {
    Processor.Preprocess(LocationType, index, item)
  }

  /** The file-name stem of address mode holds neither '.' nor ' '. */
  lemma AddressStemClean(item: LocationRecord)
    ensures var stem := Processor.Stem(LocationType, item);
      '.' !in stem && ' ' !in stem && stem == Remove(Replace(item.address, '.', '_'), ' ')
  {
  }

  /** The parameters `construct_request` spells out with '&'; `pitch` and
      `source` are defined at module level but never listed. */
  function ListedPairs(key: string, location: string): seq<(string, string)> {
    [("key", key), ("size", Size), ("location", location), ("radius", Radius), ("fov", Fov), ("heading", Heading)]
  }

  /** The URL of `construct_request`: every parameter, the first included, is
      preceded by '&', and return_error_code is glued to its value without '='. */
  function RequestUrl(key: string, location: string): (u: string)
    ensures u == BaseUrl + AmpParams(ListedPairs(key, location)) + "&return_error_code" + ReturnErrorCode
  {
    AmpParamsSix(("key", key), ("size", Size), ("location", location), ("radius", Radius), ("fov", Fov), ("heading", Heading));
    BaseUrl + Amp(("key", key)) + Amp(("size", Size)) + Amp(("location", location))
      + Amp(("radius", Radius)) + Amp(("fov", Fov)) + Amp(("heading", Heading))
      + "&return_error_code" + ReturnErrorCode
  }

  /** The query opens with "?&key=" and closes with "&return_error_codetrue". */
  lemma RequestUrlShape(key: string, location: string)
    ensures var u := RequestUrl(key, location);
      && u[..|BaseUrl| + 5] == "https://maps.googleapis.com/maps/api/streetview?&key="
      && u[|u| - 22..] == "&return_error_codetrue"
  {
  }

  /** Neither `pitch` nor `source` is among the listed parameters. */
  lemma NoPitchOrSource(key: string, location: string)
    ensures forall i :: 0 <= i < |ListedPairs(key, location)| ==>
      ListedPairs(key, location)[i].0 !in {"pitch", "source"}
  {
  }

  /** For every key and location this URL differs from the one `client.py`
      builds from the same defaults: right after the '?' it has '&' where
      `client.py` has the 'k' of "key". */
  lemma DiffersFromClientUrl(key: string, location: string, params: ApiParams)
    ensures RequestUrl(key, location) != Client.RequestUrl(key, location, params)
  {
    var u := RequestUrl(key, location);
    var v := Client.RequestUrl(key, location, params);
    var n := |BaseUrl|;
    assert u[n] == '&';
    Client.RequestUrlText(key, location, params);
    assert v[n] == 'k';
  }

  /** What `construct_request` did for one row. */
  datatype RequestOutcome =
    | Declined(url: string)
    | Written(url: string, path: string, content: Bytes)  // `response.ok`: body saved
    | Printed(url: string, body: Bytes)                    // otherwise the body is printed

  /** `construct_request`. A `RequestException` is not caught here: it ends the
      run and is a Failure. So is the `FileNotFoundError` that `open` raises when
      the file name holds '/': nothing creates a sub-directory of `save_dir`. */
  function ConstructRequest(location: string, filename: string, key: string, secret: string,
                            sign: Signer, answer: string, reply: Transport)
    : (r: Result<RequestOutcome, string>)
    ensures r.Failure? <==>
      answer == "y" && (reply.TransportError? || (IsOk(reply.response) && '/' in filename))
    ensures r.Success? ==> r.value.url == sign(RequestUrl(key, location), secret)
    ensures r.Success? ==> (r.value.Declined? <==> answer != "y")
    ensures r.Success? && r.value.Written? ==>
      reply.Delivered? && IsOk(reply.response) && '/' !in filename
      && r.value.path == SaveDir + filename && r.value.content == reply.response.content
    ensures r.Success? && r.value.Printed? ==>
      reply.Delivered? && !IsOk(reply.response) && r.value.body == reply.response.content
    ensures answer == "y" && reply.Delivered? ==>
      (r.Success? && r.value.Written? <==> IsOk(reply.response) && '/' !in filename)
  {
    var url := sign(RequestUrl(key, location), secret);
    if answer != "y" then Success(Declined(url))
    else match reply
      case TransportError(reason) => Failure(reason)
      case Delivered(response) =>
        if !IsOk(response) then Success(Printed(url, response.content))
        else if '/' in filename then Failure(NoSuchFile(SaveDir + filename))
        else Success(Written(url, SaveDir + filename, response.content))
  }

  /** Unlike `client.py`, an upper-case "Y" does not send the request. */
  lemma UpperCaseDeclines(location: string, filename: string, key: string, secret: string,
                          sign: Signer, reply: Transport)
    ensures ConstructRequest(location, filename, key, secret, sign, "Y", reply).value.Declined?
    ensures Client.Confirmed("Y")
  {
    Client.ConfirmedAnswers("Y");
  }

  /** The request for row `index`. */
  function RowRequest(index: nat, item: LocationRecord, key: string, secret: string,
                      sign: Signer, answer: string, reply: Transport): Result<RequestOutcome, string>
  {
    var (location, filename) := PreprocessLocation(index, item);
    ConstructRequest(location, filename, key, secret, sign, answer, reply)
  }

  /** `main`: rows in order, stopping after index i once i + 1 >= n_addresses,
      or at the first transport error. */
  method RunRows(table: seq<LocationRecord>, key: string, secret: string, sign: Signer,
                 answers: nat -> string, replies: (nat, string) -> Transport)
    returns (r: Result<seq<RequestOutcome>, string>)
    ensures r.Success? ==> |r.value| == Client.Attempted(|table|, NAddresses)
    ensures r.Success? ==> forall i :: 0 <= i < |r.value| ==>
      var url := sign(RequestUrl(key, PreprocessLocation(i, table[i]).0), secret);
      RowRequest(i, table[i], key, secret, sign, answers(i), replies(i, url)) == Success(r.value[i])
    ensures r.Failure? ==>
      exists i :: 0 <= i < Client.Attempted(|table|, NAddresses) &&
        var url := sign(RequestUrl(key, PreprocessLocation(i, table[i]).0), secret);
        RowRequest(i, table[i], key, secret, sign, answers(i), replies(i, url)).Failure?
  {
    var outcomes: seq<RequestOutcome> := [];
    var i := 0;
    var stop := false;
    while i < |table| && !stop
      invariant 0 <= i <= |table|
      invariant |outcomes| == i
      invariant stop ==> i == Client.Attempted(|table|, NAddresses)
      invariant !stop ==> i == 0 || i < NAddresses
      invariant forall k :: 0 <= k < i ==>
        var url := sign(RequestUrl(key, PreprocessLocation(k, table[k]).0), secret);
        RowRequest(k, table[k], key, secret, sign, answers(k), replies(k, url)) == Success(outcomes[k])
    {
      var (location, filename) := PreprocessLocation(i, table[i]);
      var url := sign(RequestUrl(key, location), secret);
      var o := ConstructRequest(location, filename, key, secret, sign, answers(i), replies(i, url));
      if o.Failure? {
        return Failure(o.error);
      }
      outcomes := outcomes + [o.value];
      if i + 1 >= NAddresses {
        stop := true;
      }
      i := i + 1;
    }
    return Success(outcomes);
  }

  /** At most one row is ever requested. */
  lemma AtMostOneRow(n: nat)
    ensures Client.Attempted(n, NAddresses) == if n == 0 then 0 else 1
  {
  }

  /** The `__main__` block: line 2 of the secrets file is the key and line 4 the
      secret, each without trailing whitespace; a missing line leaves the name unset. */
  function ReadSecrets(lines: seq<string>): (r: (Option<string>, Option<string>))
    ensures r.0.Some? <==> |lines| > 2
    ensures r.1.Some? <==> |lines| > 4
    ensures r.0.Some? ==> r.0.value <= lines[2] && (|r.0.value| == 0 || !IsSpace(r.0.value[|r.0.value| - 1]))
    ensures r.1.Some? ==> r.1.value <= lines[4] && (|r.1.value| == 0 || !IsSpace(r.1.value[|r.1.value| - 1]))
    ensures r.0.Some? ==> forall i :: |r.0.value| <= i < |lines[2]| ==> IsSpace(lines[2][i])
    ensures r.1.Some? ==> forall i :: |r.1.value| <= i < |lines[4]| ==> IsSpace(lines[4][i])
  {
    (if |lines| > 2 then Some(RStrip(lines[2])) else None,
     if |lines| > 4 then Some(RStrip(lines[4])) else None)
  }

  /** A secrets file whose third and fifth lines hold the key and the secret,
      each followed by a newline, gives back exactly that key and secret. */
  lemma ReadSecretsRoundTrip(l0: string, l1: string, key: string, l3: string, secret: string, rest: seq<string>)
    requires |key| == 0 || !IsSpace(key[|key| - 1])
    requires |secret| == 0 || !IsSpace(secret[|secret| - 1])
    ensures ReadSecrets([l0, l1, key + "\n", l3, secret + "\n"] + rest) == (Some(key), Some(secret))
  {
    RStripNewline(key);
    RStripNewline(secret);
  }

  lemma RStripNewline(s: string)
    requires |s| == 0 || !IsSpace(s[|s| - 1])
    ensures RStrip(s + "\n") == s
  {
    assert (s + "\n")[..|s|] == s;
  }
}

=== FILE: generate_loc.dfy ===
/** `data/StreetView_API/generate_loc.py`, the older fixed-step generator: fixed
    steps of 5000 and 3000 over the Athens box, latitude-major, printing
    "lat,lon" lines and stopping after the third. */
module GenerateLoc {
  import opened Base
  import opened Strings
  import Generator
  import Config

  const LatStep: int := 5000
  const LonStep: int := 3000
  const LineLimit: nat := 3

  /** `np.arange(min_lat, max_lat, 5000)` over the script's box, which is the default box. */
  function Lats(): seq<int> {
    Generator.Arange(Config.DefaultBox.minLat, Config.DefaultBox.maxLat, LatStep)
  }

  function Lons(): seq<int> {
    Generator.Arange(Config.DefaultBox.minLon, Config.DefaultBox.maxLon, LonStep)
  }

  /** One printed line: both values with the point after two characters, joined by ','. */
  function Line(lat: int, lon: int): (s: string)
    ensures |s| == |Generator.DecimalFormat(lat)| + 1 + |Generator.DecimalFormat(lon)|
    ensures s[|Generator.DecimalFormat(lat)|] == ','
    ensures s[..|Generator.DecimalFormat(lat)|] == Generator.DecimalFormat(lat)
    ensures s[|Generator.DecimalFormat(lat)| + 1..] == Generator.DecimalFormat(lon)
  {
    Generator.DecimalFormat(lat) + "," + Generator.DecimalFormat(lon)
  }

  /** A printed line reads back: the text before its first ',' and the text
      after it, with the point deleted, parse to the two scaled integers. */
  lemma LineRoundTrip(lat: int, lon: int)
    ensures var s := Line(lat, lon);
      var k := FirstIndexOf(s, ',');
      && k < |s|
      && ParseInt(Remove(s[..k], '.')) == Some(lat)
      && ParseInt(Remove(s[k + 1..], '.')) == Some(lon)
  {
    var a := Generator.DecimalFormat(lat);
    var b := Generator.DecimalFormat(lon);
    var s := Line(lat, lon);
    assert ',' !in a by {
      assert forall k :: 0 <= k < |a| ==> a[k] != ',';
    }
    assert s == a + [','] + b;
    FirstIndexOfAfter(a, ',', b);
    Generator.DecimalFormatRoundTrip(lat);
    Generator.DecimalFormatRoundTrip(lon);
    ParseIntOfIntToString(lat);
    ParseIntOfIntToString(lon);
  }

  /** The lines printed: the latitude-major cross join, cut off once the counter reaches 3. */
  function Emitted(lats: seq<int>, lons: seq<int>): (r: seq<string>)
    ensures |r| == if |lats| * |lons| < LineLimit then |lats| * |lons| else LineLimit
    ensures r <= Generator.CrossJoin(lats, lons, Line)
  {
    var all := Generator.CrossJoin(lats, lons, Line);
    if |all| < LineLimit then all else all[..LineLimit]
  }

  /** When a row has at least three longitudes, the three lines pair the first
      latitude with the first three longitudes. */
  lemma EmittedFirstRow(lats: seq<int>, lons: seq<int>)
    requires |lats| >= 1 && |lons| >= 3
    ensures Emitted(lats, lons) == [Line(lats[0], lons[0]), Line(lats[0], lons[1]), Line(lats[0], lons[2])]
  {
    var all := Generator.CrossJoin(lats, lons, Line);
    assert |lats| * |lons| >= 3 by { Generator.MulLeMono(1, |lats|, |lons|); }
    Generator.CrossJoinLayout(lats, lons, Line, 0, 0);
    Generator.CrossJoinLayout(lats, lons, Line, 0, 1);
    Generator.CrossJoinLayout(lats, lons, Line, 0, 2);
  }

  /** Both axes step upward from the box's lower corner. */
  lemma AxesShape()
    ensures Generator.ArangeShape(Lats(), Config.DefaultBox.minLat, Config.DefaultBox.maxLat, LatStep)
    ensures Generator.ArangeShape(Lons(), Config.DefaultBox.minLon, Config.DefaultBox.maxLon, LonStep)
    ensures |Lats()| == 30 && |Lons()| == 88
  {
    Generator.ArangeLength(Config.DefaultBox.minLat, Config.DefaultBox.maxLat, LatStep);
    Generator.ArangeLength(Config.DefaultBox.minLon, Config.DefaultBox.maxLon, LonStep);
  }

  /** The script prints min_lat with min_lon, min_lon + 3000 and min_lon + 6000. */
  lemma ScriptOutput()
    ensures Emitted(Lats(), Lons()) ==
      [Line(37946894, 23665374), Line(37946894, 23668374), Line(37946894, 23671374)]
  {
    AxesShape();
    EmittedFirstRow(Lats(), Lons());
  }

  /** The first printed line is "37.946894,23.665374". */
  lemma FirstLineText()
    ensures Line(37946894, 23665374) == "37.946894,23.665374"
  {
    MinLatFormat();
    MinLonFormat();
  }

  lemma MinLatFormat()
    ensures Generator.DecimalFormat(37946894) == "37.946894"
  {
    MinLatDigits();
    var d := IntToString(37946894);
    assert d[..2] == "37" && d[2..] == "946894";
  }

  lemma MinLonFormat()
    ensures Generator.DecimalFormat(23665374) == "23.665374"
  {
    MinLonDigits();
    var d := IntToString(23665374);
    assert d[..2] == "23" && d[2..] == "665374";
  }

  lemma MinLatDigits()
    ensures IntToString(37946894) == "37946894"
  {
    assert NatToString(37) == "37";
    assert NatToString(379) == "379";
    assert NatToString(3794) == "3794";
    assert NatToString(37946) == "37946";
    assert NatToString(379468) == "379468";
    assert NatToString(3794689) == "3794689";
    assert NatToString(37946894) == "37946894";
  }

  lemma MinLonDigits()
    ensures IntToString(23665374) == "23665374"
  {
    assert NatToString(23) == "23";
    assert NatToString(236) == "236";
    assert NatToString(2366) == "2366";
    assert NatToString(23665) == "23665";
    assert NatToString(236653) == "236653";
    assert NatToString(2366537) == "2366537";
    assert NatToString(23665374) == "23665374";
  }
}

=== FILE: generator.dfy ===
/** `the_machine/locations/generator.py`: sampling a bounding box evenly or at
    random, cross-joining the two axes and naming the resulting table.

    The float square root `n_locs ** 0.5` is replaced by its exact integer
    characterisation, and numpy's seeded generator by an entropy stream that
    chooses each draw inside its range (`RandomChoiceIsComplete` shows that every
    in-range outcome is reachable, so this is a free in-range choice). */
module Generator {
  import opened Base
  import opened Strings
  import opened Records
  import Config

  /** The exceptions `create_locations` can raise before it writes anything. */
  datatype GenError =
    | NegativeCount              // `n_locs ** 0.5` is complex for n_locs < 0: TypeError
    | EmptyRange                 // `rng.integers(low, high, n)` with low >= high: ValueError
    | DivisionByZero             // `range // 0.0`, or `np.arange` with a zero step
    | UnknownMethod(name: string) // `methods[params["method"]]`: KeyError

  // ---------------------------------------------------------------------------
  // Arithmetic helpers

  lemma MulLeMono(a: int, b: int, n: nat)
    requires a <= b
    ensures a * n <= b * n
  {
    assert b * n - a * n == (b - a) * n;
  }

  lemma SquareLeMono(a: nat, b: nat)
    requires a <= b
    ensures a * a <= b * b
  {
    MulLeMono(a, b, a);
    MulLeMono(a, b, b);
  }

  /** s <= x / n exactly when s * n <= x. */
  lemma DivLeIff(s: int, x: int, n: nat)
    requires n >= 1
    ensures s <= x / n <==> s * n <= x
  {
    var q := x / n;
    assert x == q * n + x % n && 0 <= x % n < n;
    if s <= q {
      MulLeMono(s, q, n);
    } else {
      MulLeMono(q + 1, s, n);
    }
  }

  lemma SquareNonNegative(a: int)
    ensures a * a >= 0
  {
    if a >= 0 {
      MulLeMono(0, a, a);
    } else {
      MulLeMono(0, -a, -a);
      assert (-a) * (-a) == a * a;
    }
  }

  /** The floor of x / n is the q with q * n <= x < (q + 1) * n. */
  lemma DivUnique(x: int, n: nat, q: int)
    requires n >= 1
    requires q * n <= x < (q + 1) * n
    ensures x / n == q
  {
    DivLeIff(q, x, n);
    DivLeIff(q + 1, x, n);
  }

  // ---------------------------------------------------------------------------
  // Square roots

  /** `int(m ** 0.5)`: the integer square root. */
  function Isqrt(m: nat): (r: nat)
    ensures r * r <= m < (r + 1) * (r + 1)
  {
    if m < 4 then
      (if m == 0 then 0 else 1)
    else
      var h := 2 * Isqrt(m / 4);
      IsqrtStep(m, Isqrt(m / 4));
      if (h + 1) * (h + 1) <= m then h + 1 else h
  }

  /** Doubling the root of m / 4 lands within two of the root of m. */
  lemma IsqrtStep(m: nat, r0: nat)
    requires r0 * r0 <= m / 4 < (r0 + 1) * (r0 + 1)
    ensures (2 * r0) * (2 * r0) <= m < (2 * r0 + 2) * (2 * r0 + 2)
  {
    var q := m / 4;
    assert m == 4 * q + m % 4 && 0 <= m % 4 < 4;
    assert (2 * r0) * (2 * r0) == 4 * (r0 * r0);
    assert (2 * r0 + 2) * (2 * r0 + 2) == 4 * ((r0 + 1) * (r0 + 1));
  }

  /** The least r with m <= r * r. */
  function CeilSqrt(m: nat): (r: nat)
    ensures m <= r * r
    ensures r == 0 || (r - 1) * (r - 1) < m
  {
    if m == 0 then 0 else Isqrt(m - 1) + 1
  }

  /** q is floor(a / sqrt(n)), stated with squares only: for a >= 0 the largest
      q >= 0 with q^2 * n <= a^2; for a < 0 the negative q with
      q <= a / sqrt(n) < q + 1. */
  ghost predicate IsFloorDivSqrt(q: int, a: int, n: nat) {
    if a >= 0 then
      0 <= q && q * q * n <= a * a < (q + 1) * (q + 1) * n
    else
      q < 0 && a * a <= q * q * n && (q == -1 || (q + 1) * (q + 1) * n < a * a)
  }

  lemma FloorDivSqrtNonNegative(a: int, n: nat)
    requires n >= 1 && a >= 0
    ensures IsFloorDivSqrt(Isqrt(a * a / n), a, n)
  {
    var x := a * a;
    var q := Isqrt(x / n);
    DivLeIff(q * q, x, n);
    DivLeIff((q + 1) * (q + 1), x, n);
  }

  /** m = (x + n - 1) / n is the ceiling of x / n. */
  lemma CeilDiv(x: nat, n: nat)
    requires n >= 1
    ensures x <= (x + n - 1) / n * n
    ensures ((x + n - 1) / n - 1) * n < x
  {
    var m := (x + n - 1) / n;
    DivLeIff(m, x + n - 1, n);
    DivLeIff(m + 1, x + n - 1, n);
    assert (m + 1) * n == m * n + n;
    assert (m - 1) * n == m * n - n;
  }

  /** c = ceil(sqrt(ceil(x / n))) is the least c with x <= c^2 * n. */
  lemma CeilSqrtOfCeilDiv(x: nat, n: nat)
    requires n >= 1 && x >= 1
    ensures var c := CeilSqrt((x + n - 1) / n);
      c >= 1 && x <= c * c * n && (c == 1 || (c - 1) * (c - 1) * n < x)
  {
    var m := (x + n - 1) / n;
    CeilDiv(x, n);
    assert m >= 1;
    var c := CeilSqrt(m);
    MulLeMono(m, c * c, n);
    if c >= 2 {
      MulLeMono((c - 1) * (c - 1), m - 1, n);
    }
  }

  lemma FloorDivSqrtNegative(a: int, n: nat)
    requires n >= 1 && a < 0
    ensures IsFloorDivSqrt(-(CeilSqrt((a * a + n - 1) / n) as int), a, n)
  {
    SquareLeMono(1, -a);
    assert (-a) * (-a) == a * a;
    var x: nat := a * a;
    CeilSqrtOfCeilDiv(x, n);
    var c := CeilSqrt((x + n - 1) / n);
    var q: int := -(c as int);
    assert q * q == c * c;
    assert (q + 1) * (q + 1) == (c - 1) * (c - 1);
  }

  /** `int(a // n ** 0.5)`: the step `_evenly_generate` takes along one axis. */
  function FloorDivSqrt(a: int, n: nat): (q: int)
    requires n >= 1
    ensures IsFloorDivSqrt(q, a, n)
  {
    if a >= 0 then
      FloorDivSqrtNonNegative(a, n);
      Isqrt(a * a / n)
    else
      SquareNonNegative(a);
      FloorDivSqrtNegative(a, n);
      -(CeilSqrt((a * a + n - 1) / n) as int)
  }

  /** A zero step (which makes `np.arange` fail) happens exactly when the range is
      non-negative and shorter than sqrt(n). */
  lemma FloorDivSqrtZero(a: int, n: nat)
    requires n >= 1
    ensures FloorDivSqrt(a, n) == 0 <==> 0 <= a && a * a < n
  {
  }

  // ---------------------------------------------------------------------------
  // Even sampling

  /** s is `np.arange(start, stop, step)`: start, start+step, ... while strictly
      before stop, and no further element would be. */
  ghost predicate ArangeShape(s: seq<int>, start: int, stop: int, step: int) {
    && step != 0
    && (forall k :: 0 <= k < |s| ==> s[k] == start + k * step)
    && (step > 0 ==> (forall k :: 0 <= k < |s| ==> s[k] < stop) && stop <= start + |s| * step)
    && (step < 0 ==> (forall k :: 0 <= k < |s| ==> s[k] > stop) && stop >= start + |s| * step)
  }

  /** `np.arange(start, stop, step)` for a non-zero integer step. */
  function Arange(start: int, stop: int, step: int): (r: seq<int>)
    requires step != 0
    ensures ArangeShape(r, start, stop, step)
    decreases if step > 0 then stop - start else start - stop
  {
    if (step > 0 && start < stop) || (step < 0 && start > stop) then
      var rest := Arange(start + step, stop, step);
      ArangeCons(start, stop, step, rest);
      [start] + rest
    else
      []
  }

  lemma ArangeCons(start: int, stop: int, step: int, rest: seq<int>)
    requires ArangeShape(rest, start + step, stop, step)
    requires (step > 0 && start < stop) || (step < 0 && start > stop)
    ensures ArangeShape([start] + rest, start, stop, step)
  {
    var r := [start] + rest;
    forall k | 1 <= k < |r|
      ensures r[k] == start + k * step
    {
      assert r[k] == rest[k - 1] == start + step + (k - 1) * step;
      assert (k - 1) * step == k * step - step;
    }
    assert |r| * step == |rest| * step + step;
  }

  /** The number of elements is ceil((stop - start) / step), or 0 when the range
      is empty in the step's direction. */
  lemma ArangeLength(start: int, stop: int, step: int)
    requires step != 0
    ensures step > 0 ==> |Arange(start, stop, step)| == if start < stop then (stop - start + step - 1) / step else 0
    ensures step < 0 ==> |Arange(start, stop, step)| == if start > stop then (start - stop - step - 1) / -step else 0
  {
    var s := Arange(start, stop, step);
    var len := |s|;
    if step > 0 && start < stop {
      assert len >= 1;
      assert s[len - 1] == start + (len - 1) * step < stop;
      assert (len - 1) * step == len * step - step;
      DivUnique(stop - start + step - 1, step, len);
    } else if step < 0 && start > stop {
      var t := -step;
      assert len >= 1;
      assert s[len - 1] == start + (len - 1) * step > stop;
      assert (len - 1) * step == -(len * t) + t;
      assert len * step == -(len * t);
      DivUnique(start - stop + t - 1, t, len);
    }
  }

  /** `_evenly_generate`: on each axis, `np.arange(min, max, int(range // n_locs ** 0.5))`. */
  function EvenlyGenerate(p: LocationParams): (r: Result<(seq<int>, seq<int>), GenError>)
    ensures r.Failure? <==>
      || p.nLocs <= 0
      || (0 <= p.box.maxLat - p.box.minLat && (p.box.maxLat - p.box.minLat) * (p.box.maxLat - p.box.minLat) < p.nLocs)
      || (0 <= p.box.maxLon - p.box.minLon && (p.box.maxLon - p.box.minLon) * (p.box.maxLon - p.box.minLon) < p.nLocs)
    ensures r.Success? ==>
      && ArangeShape(r.value.0, p.box.minLat, p.box.maxLat, FloorDivSqrt(p.box.maxLat - p.box.minLat, p.nLocs))
      && ArangeShape(r.value.1, p.box.minLon, p.box.maxLon, FloorDivSqrt(p.box.maxLon - p.box.minLon, p.nLocs))
  {
    if p.nLocs < 0 then
      Failure(NegativeCount)
    else if p.nLocs == 0 then
      Failure(DivisionByZero)
    else
      var latStep := FloorDivSqrt(p.box.maxLat - p.box.minLat, p.nLocs);
      var lonStep := FloorDivSqrt(p.box.maxLon - p.box.minLon, p.nLocs);
      FloorDivSqrtZero(p.box.maxLat - p.box.minLat, p.nLocs);
      FloorDivSqrtZero(p.box.maxLon - p.box.minLon, p.nLocs);
      if latStep == 0 || lonStep == 0 then
        Failure(DivisionByZero)
      else
        Success((Arange(p.box.minLat, p.box.maxLat, latStep), Arange(p.box.minLon, p.box.maxLon, lonStep)))
  }

  // ---------------------------------------------------------------------------
  // Random sampling

  predicate InRange(s: seq<int>, lo: int, hi: int) {
    forall k :: 0 <= k < |s| ==> lo <= s[k] < hi
  }

  /** `count` draws in [lo, hi); draw k is chosen by entropy(offset + k). */
  function DrawAxis(lo: int, hi: int, count: nat, entropy: nat -> nat, offset: nat): (r: seq<int>)
    requires lo < hi
    ensures |r| == count
    ensures InRange(r, lo, hi)
  {
    seq(count, k requires 0 <= k < count => lo + entropy(offset + k) % (hi - lo))
  }

  /** `_randomly_generate`: floor(sqrt(n_locs)) draws per axis from one stream,
      latitudes first. `rng.integers` returns an empty array for a size of 0
      before it looks at the bounds, so only a non-empty draw needs low < high. */
  function RandomlyGenerate(p: LocationParams, entropy: nat -> nat): (r: Result<(seq<int>, seq<int>), GenError>)
    ensures r.Failure? <==> p.nLocs < 0 || (p.nLocs >= 1 && (p.box.minLat >= p.box.maxLat || p.box.minLon >= p.box.maxLon))
    ensures r.Success? ==>
      && |r.value.0| == |r.value.1|
      && |r.value.0| * |r.value.0| <= p.nLocs < (|r.value.0| + 1) * (|r.value.0| + 1)
      && InRange(r.value.0, p.box.minLat, p.box.maxLat)
      && InRange(r.value.1, p.box.minLon, p.box.maxLon)
  {
    if p.nLocs < 0 then
      Failure(NegativeCount)
    else
      var n := Isqrt(p.nLocs);
      if n == 0 then
        Success(([], []))
      else if p.box.minLat >= p.box.maxLat then
        Failure(EmptyRange)
      else
        var lats := DrawAxis(p.box.minLat, p.box.maxLat, n, entropy, 0);
        if p.box.minLon >= p.box.maxLon then
          Failure(EmptyRange)
        else
          Success((lats, DrawAxis(p.box.minLon, p.box.maxLon, n, entropy, n)))
  }

  lemma DrawAxisHits(lo: int, hi: int, s: seq<int>, entropy: nat -> nat, offset: nat)
    requires lo < hi && InRange(s, lo, hi)
    requires forall k :: 0 <= k < |s| ==> entropy(offset + k) == s[k] - lo
    ensures DrawAxis(lo, hi, |s|, entropy, offset) == s
  {
    var r := DrawAxis(lo, hi, |s|, entropy, offset);
    forall k | 0 <= k < |s|
      ensures r[k] == s[k]
    {
      assert entropy(offset + k) % (hi - lo) == s[k] - lo;
    }
  }

  /** Every pair of in-range axes of the right length is an outcome of the
      random method: the model rules out no draw numpy could make. */
  lemma RandomChoiceIsComplete(p: LocationParams, lats: seq<int>, lons: seq<int>)
    requires 0 <= p.nLocs
    requires Isqrt(p.nLocs) == 0 || (p.box.minLat < p.box.maxLat && p.box.minLon < p.box.maxLon)
    requires |lats| == |lons| == Isqrt(p.nLocs)
    requires InRange(lats, p.box.minLat, p.box.maxLat) && InRange(lons, p.box.minLon, p.box.maxLon)
    ensures exists entropy: nat -> nat :: RandomlyGenerate(p, entropy) == Success((lats, lons))
  {
    var n := |lats|;
    if n == 0 {
      var entropy: nat -> nat := (i: nat) => 0;
      assert lats == [] && lons == [];
      assert RandomlyGenerate(p, entropy) == Success((lats, lons));
      return;
    }
    var latLo, lonLo := p.box.minLat, p.box.minLon;
    var entropy: nat -> nat := (i: nat) =>
      if i < n then (if lats[i] >= latLo then lats[i] - latLo else 0)
      else if i < 2 * n then (if lons[i - n] >= lonLo then lons[i - n] - lonLo else 0)
      else 0;
    assert forall k :: 0 <= k < n ==> entropy(0 + k) == lats[k] - latLo;
    assert forall k :: 0 <= k < n ==> entropy(n + k) == lons[k] - lonLo;
    DrawAxisHits(latLo, p.box.maxLat, lats, entropy, 0);
    DrawAxisHits(lonLo, p.box.maxLon, lons, entropy, n);
    assert RandomlyGenerate(p, entropy) == Success((lats, lons));
  }

  // ---------------------------------------------------------------------------
  // Formatting and the cross join

  /** `s[:2] + "." + s[2:]` with `s = str(v)`: a decimal point after the first two characters. */
  function DecimalFormat(v: int): (s: string)
    ensures |s| == |IntToString(v)| + 1
    ensures s[|Take(IntToString(v), 2)|] == '.'
    ensures forall k :: 0 <= k < |s| ==> IsDigit(s[k]) || s[k] == '-' || s[k] == '.'
  {
    var digits := IntToString(v);
    var cut := |Take(digits, 2)|;
    var s := digits[..cut] + "." + digits[cut..];
    assert forall k :: 0 <= k < |s| ==> s[k] == '.' || s[k] == digits[if k < cut then k else k - 1];
    s
  }

  /** Deleting the inserted point gives back `str(v)`. */
  lemma DecimalFormatRoundTrip(v: int)
    ensures Remove(DecimalFormat(v), '.') == IntToString(v)
  {
    var digits := IntToString(v);
    var cut := |Take(digits, 2)|;
    assert '.' !in digits[..cut] && '.' !in digits[cut..] by {
      assert forall k :: 0 <= k < |digits| ==> digits[k] != '.';
    }
    RemoveOnly(digits[..cut], '.', digits[cut..]);
    assert digits[..cut] + digits[cut..] == digits;
    assert DecimalFormat(v) == digits[..cut] + ['.'] + digits[cut..];
  }

  /** The four default corners are 8-digit numbers, so each prints as "DD.DDDDDD". */
  lemma DefaultBoxFormats(v: int)
    requires v in {Config.DefaultBox.minLat, Config.DefaultBox.maxLat, Config.DefaultBox.minLon, Config.DefaultBox.maxLon}
    ensures |DecimalFormat(v)| == 9
    ensures DecimalFormat(v)[2] == '.'
    ensures forall k :: 0 <= k < 9 && k != 2 ==> IsDigit(DecimalFormat(v)[k])
  {
    assert Pow10(7) == 10000000 && Pow10(8) == 100000000;
    NatToStringLength(v, 7);
    var digits := IntToString(v);
    var s := DecimalFormat(v);
    assert s == digits[..2] + "." + digits[2..];
    assert forall k :: 0 <= k < 9 && k != 2 ==> s[k] == digits[if k < 2 then k else k - 1];
  }

  /** The row `_generate_coordinates` appends for one (lat, lon) pair. */
  function CoordinateRow(lat: int, lon: int): LocationRecord {
    LocationRecord("-", "-", "-", DecimalFormat(lat), DecimalFormat(lon))
  }

  /** The nested `for x in xs: for y in ys:` loop: f(x, y) for every pair, the
      outer sequence major. */
  function CrossJoin<A, B, R>(xs: seq<A>, ys: seq<B>, f: (A, B) -> R): (r: seq<R>)
    ensures |r| == |xs| * |ys|
  {
    if |xs| == 0 then
      []
    else
      var rest := CrossJoin(xs[1..], ys, f);
      assert |ys| + (|xs| - 1) * |ys| == |xs| * |ys|;
      seq(|ys|, j requires 0 <= j < |ys| => f(xs[0], ys[j])) + rest
  }

  /** i * m by repeated addition, so that the layout proof stays linear. */
  function Times(i: nat, m: nat): nat {
    if i == 0 then 0 else m + Times(i - 1, m)
  }

  lemma {:induction false} TimesIsProduct(i: nat, m: nat)
    ensures Times(i, m) == i * m
  {
    if i > 0 {
      TimesIsProduct(i - 1, m);
      assert (i - 1) * m + m == i * m;
    }
  }

  lemma {:induction false} CrossJoinBlocks<A, B, R>(xs: seq<A>, ys: seq<B>, f: (A, B) -> R, i: nat, j: nat)
    requires i < |xs| && j < |ys|
    ensures Times(i, |ys|) + j < |CrossJoin(xs, ys, f)|
    ensures CrossJoin(xs, ys, f)[Times(i, |ys|) + j] == f(xs[i], ys[j])
  {
    if i > 0 {
      CrossJoinBlocks(xs[1..], ys, f, i - 1, j);
      assert xs[1..][i - 1] == xs[i];
    }
  }

  /** Element i * |ys| + j of the join is f(xs[i], ys[j]). */
  lemma CrossJoinLayout<A, B, R>(xs: seq<A>, ys: seq<B>, f: (A, B) -> R, i: nat, j: nat)
    requires i < |xs| && j < |ys|
    ensures i * |ys| + j < |CrossJoin(xs, ys, f)|
    ensures CrossJoin(xs, ys, f)[i * |ys| + j] == f(xs[i], ys[j])
  {
    CrossJoinBlocks(xs, ys, f, i, j);
    TimesIsProduct(i, |ys|);
  }

  /** `_generate_coordinates`: the latitude-major cross join of the two axes. */
  function GenerateCoordinates(lats: seq<int>, lons: seq<int>): seq<LocationRecord> {
    CrossJoin(lats, lons, CoordinateRow)
  }

  /** The table has |lats| * |lons| rows; row i * |lons| + j pairs lats[i] with
      lons[j], formatted, under placeholder address cells. */
  lemma GenerateCoordinatesLayout(lats: seq<int>, lons: seq<int>, i: nat, j: nat)
    requires i < |lats| && j < |lons|
    ensures |GenerateCoordinates(lats, lons)| == |lats| * |lons|
    ensures i * |lons| + j < |GenerateCoordinates(lats, lons)|
    ensures GenerateCoordinates(lats, lons)[i * |lons| + j] ==
              LocationRecord("-", "-", "-", DecimalFormat(lats[i]), DecimalFormat(lons[j]))
  {
    CrossJoinLayout(lats, lons, CoordinateRow, i, j);
  }

  // ---------------------------------------------------------------------------
  // The entry point

  const Columns: seq<string> := ["Address", "City", "Country", "lat", "long"]

  /** The table `create_locations` writes, and the path it returns. */
  datatype LocationsFile = LocationsFile(path: string, columns: seq<string>, rows: seq<LocationRecord>)

  /** `create_locations`: both samplers run before the method is looked up. */
  function CreateLocations(p: LocationParams, entropy: nat -> nat, cwd: string): (r: Result<LocationsFile, GenError>)
    ensures r.Success? <==>
      RandomlyGenerate(p, entropy).Success? && EvenlyGenerate(p).Success? && p.methodName in {"random", "even"}
    ensures r.Success? ==> r.value.path == JoinPath(cwd, "athens_" + p.methodName + ".csv")
    ensures r.Success? ==> r.value.columns == Columns
    ensures r.Success? ==>
      var axes := if p.methodName == "random" then RandomlyGenerate(p, entropy).value else EvenlyGenerate(p).value;
      r.value.rows == GenerateCoordinates(axes.0, axes.1)
  {
    var random := RandomlyGenerate(p, entropy);
    var even := EvenlyGenerate(p);
    if random.Failure? then
      Failure(random.error)
    else if even.Failure? then
      Failure(even.error)
    else if p.methodName != "random" && p.methodName != "even" then
      Failure(UnknownMethod(p.methodName))
    else
      var axes := if p.methodName == "random" then random.value else even.value;
      Success(LocationsFile(
        JoinPath(cwd, "athens_" + p.methodName + ".csv"),
        Columns,
        GenerateCoordinates(axes.0, axes.1)))
  }

  /** n_locs = 0 makes the even sampler divide by zero, so no method succeeds:
      the random sampler draws nothing and the error is the even one's. */
  lemma ZeroCountAlwaysFails(p: LocationParams, entropy: nat -> nat, cwd: string)
    requires p.nLocs == 0
    ensures RandomlyGenerate(p, entropy) == Success(([], []))
    ensures CreateLocations(p, entropy, cwd) == Failure(DivisionByZero)
  {
  }

  /** An unknown method name fails, and reports itself only once both samplers
      have succeeded. */
  lemma UnknownMethodFailsLast(p: LocationParams, entropy: nat -> nat, cwd: string)
    requires p.methodName != "random" && p.methodName != "even"
    ensures CreateLocations(p, entropy, cwd).Failure?
    ensures CreateLocations(p, entropy, cwd).error == UnknownMethod(p.methodName) <==>
              RandomlyGenerate(p, entropy).Success? && EvenlyGenerate(p).Success?
  {
  }

  lemma IsqrtOfTen()
    ensures Isqrt(10) == 3
  {
    var r := Isqrt(10);
    if r >= 4 {
      SquareLeMono(4, r);
    } else if r <= 2 {
      SquareLeMono(r + 1, 3);
    }
  }

  lemma RandomTableName(name: string)
    requires name == "random"
    ensures "athens_" + name + ".csv" == "athens_random.csv"
  {
  }

  /** With the default parameters (random, n_locs 10) the table has 3 x 3 rows
      and is written to athens_random.csv. */
  lemma DefaultRandomTable(p: LocationParams, entropy: nat -> nat, cwd: string)
    requires p == Config.DefaultLocationParams
    ensures CreateLocations(p, entropy, cwd).Success?
    ensures |CreateLocations(p, entropy, cwd).value.rows| == 9
    ensures CreateLocations(p, entropy, cwd).value.path == JoinPath(cwd, "athens_random.csv")
  {
    IsqrtOfTen();
    assert p.nLocs == 10 && p.methodName == "random";
    assert p.box.maxLat - p.box.minLat == 145783 && p.box.maxLon - p.box.minLon == 261269;
    var random := RandomlyGenerate(p, entropy);
    assert random.Success? && |random.value.0| == 3 && |random.value.1| == 3;
    assert EvenlyGenerate(p).Success?;
    var r := CreateLocations(p, entropy, cwd);
    assert r.Success?;
    assert r.value.rows == CrossJoin(random.value.0, random.value.1, CoordinateRow);
    assert |r.value.rows| == 3 * 3;
    RandomTableName(p.methodName);
  }
}

=== FILE: http.dfy ===
/** What the pipeline sees of the `requests` library and of URL signing. */
module Http {
  import opened Base

  /** A reply: its status code, its body as bytes (`content`) and as text (`text`). */
  datatype Response = Response(status: int, content: Bytes, text: string)

  /** `requests.get` either yields a reply or raises a `RequestException`
      (connection refused, timeout, invalid URL, ...). */
  datatype Transport = Delivered(response: Response) | TransportError(reason: string)

  /** `response.raise_for_status()` raises exactly for 4xx and 5xx codes. */
  predicate RaisesForStatus(status: int) {
    400 <= status < 600
  }

  /** `response.ok`. */
  predicate IsOk(r: Response) {
    !RaisesForStatus(r.status)
  }

  /** `response.ok` is false exactly when `raise_for_status` would raise: every
      1xx, 2xx and 3xx code is ok, every 4xx and 5xx code is not. */
  lemma OkStatuses(r: Response)
    ensures IsOk(r) <==> !RaisesForStatus(r.status)
    ensures 100 <= r.status < 400 ==> IsOk(r)
    ensures r.status / 100 in {4, 5} ==> !IsOk(r)
  {
  }

  /** `sign_url(input_url, secret)`: HMAC-SHA1 signing, taken as given. */
  type Signer = (string, string) -> string

  /** One `name=value` query parameter. */
  function Param(p: (string, string)): string {
    p.0 + "=" + p.1
  }

  /** One parameter after the first: `&name=value`. */
  function Amp(p: (string, string)): string {
    "&" + Param(p)
  }

  /** `&name=value` for each parameter in turn. */
  function AmpParams(ps: seq<(string, string)>): string {
    if |ps| == 0 then "" else Amp(ps[0]) + AmpParams(ps[1..])
  }

  /** Six parameters render as their six `&name=value` pieces in order. */
  lemma AmpParamsSix(a: (string, string), b: (string, string), c: (string, string),
                     d: (string, string), e: (string, string), f: (string, string))
    ensures AmpParams([a, b, c, d, e, f]) == Amp(a) + Amp(b) + Amp(c) + Amp(d) + Amp(e) + Amp(f)
  {
    assert [a, b, c, d, e, f][1..] == [b, c, d, e, f];
    assert [b, c, d, e, f][1..] == [c, d, e, f];
    assert [c, d, e, f][1..] == [d, e, f];
    assert [d, e, f][1..] == [e, f];
    assert [e, f][1..] == [f];
    assert [f][1..] == [];
    assert AmpParams([f]) == Amp(f);
    assert AmpParams([e, f]) == Amp(e) + Amp(f);
    assert AmpParams([d, e, f]) == Amp(d) + (Amp(e) + Amp(f));
    assert AmpParams([c, d, e, f]) == Amp(c) + (Amp(d) + (Amp(e) + Amp(f)));
    assert AmpParams([b, c, d, e, f]) == Amp(b) + (Amp(c) + (Amp(d) + (Amp(e) + Amp(f))));
  }

  /** The last parameter is rendered last. */
  lemma {:induction false} AmpParamsLast(ps: seq<(string, string)>)
    requires |ps| > 0
    ensures AmpParams(ps) == AmpParams(ps[..|ps| - 1]) + Amp(ps[|ps| - 1])
  {
    if |ps| > 1 {
      AmpParamsLast(ps[1..]);
      assert ps[1..][..|ps| - 2] == ps[..|ps| - 1][1..];
    }
  }

  /** A URL with two or more parameters opens with the first two and closes
      with the last. */
  lemma UrlShape(base: string, ps: seq<(string, string)>)
    requires |ps| >= 2
    ensures var u := base + "?" + Query(ps);
      && base + "?" + Param(ps[0]) + Amp(ps[1]) <= u
      && |Amp(ps[|ps| - 1])| <= |u| && u[|u| - |Amp(ps[|ps| - 1])|..] == Amp(ps[|ps| - 1])
  {
    var head := base + "?";
    var q := Query(ps);
    var first := Param(ps[0]) + Amp(ps[1]);
    assert ps[1..][1..] == ps[2..];
    assert q == first + AmpParams(ps[2..]);
    assert head + first <= head + q by {
      assert head + q == (head + first) + AmpParams(ps[2..]);
    }
    var rest := ps[1..];
    AmpParamsLast(rest);
    var last := Amp(ps[|ps| - 1]);
    assert rest[|rest| - 1] == ps[|ps| - 1];
    var init := Param(ps[0]) + AmpParams(rest[..|rest| - 1]);
    assert q == init + last;
    assert head + q == (head + init) + last;
  }

  /** A query string: the parameters in the given order, joined by '&'. */
  function Query(ps: seq<(string, string)>): string {
    if |ps| == 0 then "" else Param(ps[0]) + AmpParams(ps[1..])
  }
}

=== FILE: interact_run.dfy ===
/** The pure steps of `source/interact_run.py`: reading integers and the method
    choice from typed lines, checking the typed credentials and filling in the
    request parameters. Each prompt loop is modelled over the sequence of lines
    the user types. */
module InteractRun {
  import opened Base
  import opened Strings
  import opened Records
  import Config
  import Generator
  import GenerateLoc
  import Client

  /** One pass of a prompt loop: a value, or ask again. */
  datatype Step<+T> = Accept(value: T) | Retry

  /** A character `int()` can never read, even once '.' and ',' are dropped:
      not whitespace, not a digit, not a separator and not a sign. */
  predicate Foreign(c: char) {
    !IsSpace(c) && !IsDigit(c) && c !in {'.', ',', '+', '-'}
  }

  /** One pass of `prompt_for_int`: strip; an empty line takes the default if
      there is one; otherwise drop every '.' and ',' and parse, asking again
      when `int()` raises ValueError. */
  function IntStep(line: string, default: Option<int>): (r: Step<int>)
    ensures |Strip(line)| == 0 ==> (r.Accept? <==> default.Some?) && (r.Accept? ==> r.value == default.value)
    ensures (exists i :: 0 <= i < |line| && Foreign(line[i])) ==> r.Retry?
  {
    var t := Strip(line);
    if |t| == 0 then
      if default.Some? then Accept(default.value) else Retry
    else
      RejectsForeign(line);
      match ParseInt(Remove(Remove(t, '.'), ','))
      case Some(v) => Accept(v)
      case None => Retry
  }

  /** A foreign character survives stripping and both removals, so the parse fails. */
  lemma RejectsForeign(line: string)
    ensures (exists i :: 0 <= i < |line| && Foreign(line[i])) ==>
      ParseInt(Remove(Remove(Strip(line), '.'), ',')).None?
  {
    if i :| 0 <= i < |line| && Foreign(line[i]) {
      var x := line[i];
      StripKeepsNonSpace(line, x);
      RemoveKeepsOther(Strip(line), '.', x);
      RemoveKeepsOther(Remove(Strip(line), '.'), ',', x);
      StripKeepsNonSpace(Remove(Remove(Strip(line), '.'), ','), x);
      ParseStrippedRejects(Strip(Remove(Remove(Strip(line), '.'), ',')), x);
    }
  }

  /** Any rendering of v with '.' and ',' inserted anywhere, and no whitespace,
      reads back as v, whatever the default. */
  lemma TypedNumber(line: string, v: int, default: Option<int>)
    requires forall i :: 0 <= i < |line| ==> !IsSpace(line[i])
    requires Remove(Remove(line, '.'), ',') == IntToString(v)
    ensures IntStep(line, default) == Accept(v)
  {
    StripUnchanged(line);
    ParseIntOfIntToString(v);
  }

  /** A prompt loop over the lines typed: the value of the first line `step`
      accepts, or None if the lines run out first (where Python would raise EOFError). */
  function FirstAccepted<T>(lines: seq<string>, step: string -> Step<T>): (r: Option<T>)
    ensures r.None? <==> forall i :: 0 <= i < |lines| ==> step(lines[i]).Retry?
  {
    if |lines| == 0 then None
    else match step(lines[0])
      case Accept(v) => Some(v)
      case Retry =>
        assert forall i :: 1 <= i < |lines| ==> lines[1..][i - 1] == lines[i];
        FirstAccepted(lines[1..], step)
  }

  /** The value returned is the one the first accepted line gave; every line
      before it was rejected. */
  lemma {:induction false} FirstAcceptedIsFirst<T>(lines: seq<string>, step: string -> Step<T>)
    requires FirstAccepted(lines, step).Some?
    ensures exists i :: (0 <= i < |lines| && step(lines[i]) == Accept(FirstAccepted(lines, step).value)
                         && forall k :: 0 <= k < i ==> step(lines[k]).Retry?)
  {
    if step(lines[0]).Retry? {
      FirstAcceptedIsFirst(lines[1..], step);
      var j :| 0 <= j < |lines[1..]| && step(lines[1..][j]) == Accept(FirstAccepted(lines[1..], step).value)
        && forall k :: 0 <= k < j ==> step(lines[1..][k]).Retry?;
      assert step(lines[j + 1]) == Accept(FirstAccepted(lines, step).value);
      assert forall k :: 1 <= k < j + 1 ==> lines[k] == lines[1..][k - 1];
    } else {
      assert step(lines[0]) == Accept(FirstAccepted(lines, step).value);
    }
  }

  /** `prompt_for_int` over the lines typed. */
  function PromptForInt(lines: seq<string>, default: Option<int>): (r: Option<int>)
    ensures r.None? <==> forall i :: 0 <= i < |lines| ==> IntStep(lines[i], default).Retry?
    ensures r.Some? ==> exists i :: (0 <= i < |lines| && IntStep(lines[i], default) == Accept(r.value)
                                     && forall k :: 0 <= k < i ==> IntStep(lines[k], default).Retry?)
    ensures |lines| > 0 && |Strip(lines[0])| == 0 && default.Some? ==> r == default
  {
    var step := line => IntStep(line, default);
    var r := FirstAccepted(lines, step);
    if r.Some? then FirstAcceptedIsFirst(lines, step); r else r
  }

  /** Typing a coordinate as printed, point included, gives back its scaled integer. */
  lemma TypedCoordinate(v: int, default: Option<int>)
    ensures IntStep(Generator.DecimalFormat(v), default) == Accept(v)
  {
    var s := Generator.DecimalFormat(v);
    assert forall i :: 0 <= i < |s| ==> !IsSpace(s[i]);
    Generator.DecimalFormatRoundTrip(v);
    var digits := IntToString(v);
    assert ',' !in digits;
    RemoveAbsent(digits, ',');
    TypedNumber(s, v, default);
  }

  /** Thousands separators are dropped: "23,665,374" reads as 23665374. */
  lemma TypedWithCommas()
    ensures IntStep("23,665,374", None) == Accept(23665374)
  {
    var line := "23,665,374";
    assert forall i :: 0 <= i < |line| ==> !IsSpace(line[i]);
    RemoveAbsent(line, '.');
    CommasRemoved(line);
    GenerateLoc.MinLonDigits();
    TypedNumber(line, 23665374, None);
  }

  lemma CommasRemoved(line: string)
    requires line == "23,665,374"
    ensures Remove(line, ',') == "23665374"
  {
    var head := "23,665";
    assert line == head + "," + "374";
    RemoveAroundComma(head, "374");
    HeadCommasRemoved(head);
    RemoveAbsent("374", ',');
  }

  lemma HeadCommasRemoved(head: string)
    requires head == "23,665"
    ensures Remove(head, ',') == "23665"
  {
    assert head == "23" + "," + "665";
    RemoveAroundComma("23", "665");
    RemoveAbsent("23", ',');
    RemoveAbsent("665", ',');
  }

  lemma RemoveAroundComma(x: string, y: string)
    ensures Remove(x + "," + y, ',') == Remove(x, ',') + Remove(y, ',')
  {
    RemoveConcat(x, "," + y, ',');
    RemoveLeadingComma(y);
    assert x + "," + y == x + ("," + y);
  }

  lemma RemoveLeadingComma(y: string)
    ensures Remove("," + y, ',') == Remove(y, ',')
  {
    RemoveConcat(",", y, ',');
  }

  /** One pass of the method prompt: an empty line counts as "1"; "1" is random,
      "2" is even, anything else asks again. */
  function MethodStep(line: string): (r: Step<string>)
    ensures r.Accept? ==> r.value in {"random", "even"}
  {
    var t := Strip(line);
    var choice := if |t| == 0 then "1" else t;
    if choice == "1" then Accept("random")
    else if choice == "2" then Accept("even")
    else Retry
  }

  /** The method prompt over the lines typed. */
  function PromptForMethod(lines: seq<string>): (r: Option<string>)
    ensures r.None? <==> forall i :: 0 <= i < |lines| ==> MethodStep(lines[i]).Retry?
    ensures r.Some? ==> r.value in {"random", "even"}
    ensures |lines| > 0 && |Strip(lines[0])| == 0 ==> r == Some("random")
  {
    var r := FirstAccepted(lines, MethodStep);
    if r.Some? then FirstAcceptedIsFirst(lines, MethodStep); r else r
  }

  /** Exactly the blank line and "1" choose random; exactly "2" chooses even. */
  lemma MethodChoices(line: string)
    ensures MethodStep(line) == Accept("random") <==> Strip(line) == "" || Strip(line) == "1"
    ensures MethodStep(line) == Accept("even") <==> Strip(line) == "2"
    ensures MethodStep(line) == Retry <==> Strip(line) !in {"", "1", "2"}
  {
  }

  /** `make_request` after reading the credentials: both must be non-empty once stripped. */
  function CheckCredentials(keyLine: string, secretLine: string): (r: Option<(string, string)>)
    ensures r.Some? <==> |Strip(keyLine)| > 0 && |Strip(secretLine)| > 0
    ensures r.Some? ==> r.value == (Strip(keyLine), Strip(secretLine))
  {
    var key := Strip(keyLine);
    var secret := Strip(secretLine);
    if |key| == 0 || |secret| == 0 then None else Some((key, secret))
  }

  /** The typed credentials are placed in the environment, so `fetch_images`
      takes them ahead of any config file. */
  lemma TypedCredentialsWin(keyLine: string, secretLine: string, configFile: Option<Client.ConfigFile>)
    requires CheckCredentials(keyLine, secretLine).Some?
    ensures var (k, s) := CheckCredentials(keyLine, secretLine).value;
      Client.GetCredentials(Some(k), Some(s), configFile) == (Some(k), Some(s))
  {
  }

  /** `input(...).strip() or default`. */
  function OrDefault(line: string, default: string): (r: string)
    ensures |default| > 0 ==> |r| > 0
    ensures |Strip(line)| > 0 ==> r == Strip(line)
    ensures |Strip(line)| == 0 ==> r == default
  {
    var t := Strip(line);
    if |t| == 0 then default else t
  }

  /** The parameter dictionary `make_request` passes on, from the photo count
      and the five typed lines; `source` and `return_error_code` are fixed. */
  function RequestParams(nAddresses: int, size: string, fov: string, heading: string, radius: string, pitch: string)
    : (p: ApiParams)
    ensures p.nAddresses == Some(nAddresses)
    ensures p.source == Some("default") && p.returnErrorCode == "true"
    ensures Client.SendsPitch(p) && !Client.SendsSource(p)
    ensures p.size == OrDefault(size, "640x640") && p.fov == OrDefault(fov, "120")
    ensures p.heading == OrDefault(heading, "0") && p.radius == OrDefault(radius, "50")
    ensures p.pitch == Some(OrDefault(pitch, "10"))
  {
    ApiParams(
      Some(nAddresses),
      OrDefault(size, "640x640"),
      OrDefault(fov, "120"),
      OrDefault(heading, "0"),
      OrDefault(radius, "50"),
      Some(OrDefault(pitch, "10")),
      Some("default"),
      "true")
  }

  /** Pressing Enter at every prompt reproduces the library's default parameters. */
  lemma BlankEntriesGiveDefaults(count: string)
    requires |Strip(count)| == 0
    ensures PromptForInt([count], Some(1)) == Some(1)
    ensures RequestParams(1, "", "", "", "", "") == Config.DefaultApiParams
  {
  }
}

=== FILE: processor.dfy ===
/** `the_machine/locations/processor.py` (and its copy in `fetch_loc.py`): one
    table row becomes the `location` query value and the image file name. */
module Processor {
  import opened Base
  import opened Strings
  import opened Records
  import Config
  import Generator

  /** The file name's middle part: in coordinates mode "lat_long" without any '.',
      in address mode the address with '.' turned into '_' and spaces dropped. */
  function Stem(locationType: string, item: LocationRecord): (s: string)
    ensures '.' !in s
    ensures locationType != "coordinates" ==> ' ' !in s
    ensures locationType == "coordinates" ==> s == Remove(item.lat, '.') + "_" + Remove(item.long, '.')
  {
    if locationType == "coordinates" then
      RemoveConcat(item.lat + "_", item.long, '.');
      RemoveConcat(item.lat, "_", '.');
      RemoveAbsent("_", '.');
      Remove(item.lat + "_" + item.long, '.')
    else
      var dotless := Replace(item.address, '.', '_');
      RemoveKeepsAbsent(dotless, ' ', '.');
      Remove(dotless, ' ')
  }

  /** The `location` query value: "lat,long", or "Address,City,Country" with
      every space removed. */
  function Location(locationType: string, item: LocationRecord): (loc: string)
    ensures locationType != "coordinates" ==> ' ' !in loc
    ensures locationType != "coordinates" ==>
      loc == Remove(item.address, ' ') + "," + Remove(item.city, ' ') + "," + Remove(item.country, ' ')
  {
    if locationType == "coordinates" then
      item.lat + "," + item.long
    else
      var a, c, k := item.address, item.city, item.country;
      RemoveConcat(a + ", " + c + ", ", k, ' ');
      RemoveConcat(a + ", " + c, ", ", ' ');
      RemoveConcat(a + ", ", c, ' ');
      RemoveConcat(a, ", ", ' ');
      assert Remove(", ", ' ') == ",";
      Remove(a + ", " + c + ", " + k, ' ')
  }

  /** `f"view_{index}_{loc_str}.jpg"`. */
  function FileName(index: int, stem: string): string {
    "view_" + IntToString(index) + "_" + stem + ".jpg"
  }

  /** `preprocess_location` with the module's location type passed in. */
  function Preprocess(locationType: string, index: int, item: LocationRecord): (r: (string, string))
    ensures locationType == "coordinates" ==> r.0 == item.lat + "," + item.long
    ensures locationType != "coordinates" ==>
      r.0 == Remove(item.address, ' ') + "," + Remove(item.city, ' ') + "," + Remove(item.country, ' ')
    ensures FileNameIndex(r.1) == Some(index)
    ensures |r.1| >= |IntToString(index)| + 10
    ensures r.1[..5] == "view_" && r.1[|r.1| - 4..] == ".jpg"
    ensures '.' !in r.1[|IntToString(index)| + 6..|r.1| - 4]
  {
    var stem := Stem(locationType, item);
    FileNameIndexRoundTrip(index, stem);
    FileNameParts(index, stem);
    (Location(locationType, item), FileName(index, stem))
  }

  /** A file name is "view_", the index, '_', the stem and ".jpg", each at a
      position that depends only on the index and the stem's length. */
  lemma FileNameParts(index: int, stem: string)
    ensures var name := FileName(index, stem);
      var d := |IntToString(index)|;
      && |name| == d + |stem| + 10
      && name[..5] == "view_"
      && name[|name| - 4..] == ".jpg"
      && name[d + 6..|name| - 4] == stem
  {
    var digits := IntToString(index);
    var name := FileName(index, stem);
    assert name == "view_" + digits + "_" + stem + ".jpg";
    assert name[..5] == "view_";
    assert name[|name| - 4..] == ".jpg";
    assert name[|digits| + 6..|name| - 4] == stem;
  }

  /** `preprocess_location` in `processor.py`: the global `DEFAULT_LOCATION_TYPE`
      is "coordinates", so every row takes the coordinate branch. */
  function PreprocessLocation(index: int, item: LocationRecord): (r: (string, string))
    ensures r.0 == item.lat + "," + item.long
    ensures r.1 == FileName(index, Remove(item.lat, '.') + "_" + Remove(item.long, '.'))
  {
    Preprocess(Config.DefaultLocationType, index, item)
  }

  /** Reads the index back out of a file name: the text between "view_" and the
      next '_'. */
  function FileNameIndex(name: string): Option<int> {
    if |name| < 5 || name[..5] != "view_" then None
    else
      var rest := name[5..];
      ParseInt(rest[..FirstIndexOf(rest, '_')])
  }

  /** The index is recoverable from every file name, whatever the stem. */
  lemma FileNameIndexRoundTrip(index: int, stem: string)
    ensures FileNameIndex(FileName(index, stem)) == Some(index)
  {
    var digits := IntToString(index);
    var name := FileName(index, stem);
    assert name[..5] == "view_";
    var rest := name[5..];
    assert rest == digits + ['_'] + (stem + ".jpg");
    assert '_' !in digits;
    FirstIndexOfAfter(digits, '_', stem + ".jpg");
    assert rest[..|digits|] == digits;
    ParseIntOfIntToString(index);
  }

  /** Rows with different indices never share a file name. */
  lemma FileNamesDistinct(i: int, j: int, s: string, t: string)
    requires i != j
    ensures FileName(i, s) != FileName(j, t)
  {
    FileNameIndexRoundTrip(i, s);
    FileNameIndexRoundTrip(j, t);
  }

  /** A coordinate location splits back into lat and long at its first ','
      whenever lat itself holds none. */
  lemma CoordinateLocationSplits(item: LocationRecord)
    requires ',' !in item.lat
    ensures var loc := Location("coordinates", item);
      var k := FirstIndexOf(loc, ',');
      k == |item.lat| && loc[..k] == item.lat && loc[k + 1..] == item.long
  {
    var loc := Location("coordinates", item);
    assert loc == item.lat + [','] + item.long;
    FirstIndexOfAfter(item.lat, ',', item.long);
  }

  /** A row written by the generator gets the file name
      "view_<index>_<str(lat)>_<str(lon)>.jpg": the dots the generator inserted
      are exactly the ones the processor deletes. */
  lemma GeneratedRowFileName(index: int, lat: int, lon: int)
    ensures PreprocessLocation(index, Generator.CoordinateRow(lat, lon)).1 ==
              FileName(index, IntToString(lat) + "_" + IntToString(lon))
  {
    Generator.DecimalFormatRoundTrip(lat);
    Generator.DecimalFormatRoundTrip(lon);
  }
}

=== FILE: records.dfy ===
/** The shapes of the dictionaries and table rows that flow through the pipeline. */
module Records {
  import opened Base

  /** Degrees scaled by 10^6 with the decimal point dropped: 37946894 is 37.946894. */
  datatype BoundingBox = BoundingBox(minLat: int, maxLat: int, minLon: int, maxLon: int)

  /** The `params` dictionary of `create_locations`. */
  datatype LocationParams = LocationParams(box: BoundingBox, methodName: string, nLocs: int)

  /** One row of the location table, every cell as the text `str()` gives for it. */
  datatype LocationRecord = LocationRecord(address: string, city: string, country: string, lat: string, long: string)

  /** The `params` dictionary of `fetch_images`; `None` marks a key the dictionary lacks
      where the code reads it with `.get`. */
  datatype ApiParams = ApiParams(
    nAddresses: Option<int>,
    size: string,
    fov: string,
    heading: string,
    radius: string,
    pitch: Option<string>,
    source: Option<string>,
    returnErrorCode: string)
}

=== FILE: strings.dfy ===
/** The pieces of Python's `str` behaviour the pipeline relies on: `str(int)`,
    `int(str)` on plain decimal input, `strip`/`rstrip`, one-character
    `replace`, `lower`, the `in` substring test and `os.path.join`. */
module Strings {
  import opened Base

  predicate IsDigit(c: char) {
    '0' <= c <= '9'
  }

  predicate AllDigits(s: string) {
    forall i :: 0 <= i < |s| ==> IsDigit(s[i])
  }

  function DigitChar(d: nat): (c: char)
    requires d < 10
    ensures IsDigit(c) && DigitValue(c) == d
  {
    (d + '0' as int) as char
  }

  function DigitValue(c: char): nat
    requires IsDigit(c)
  {
    c as int - '0' as int
  }

  function Pow10(k: nat): nat {
    if k == 0 then 1 else 10 * Pow10(k - 1)
  }

  /** `str(n)` for a non-negative integer: decimal digits without leading zeros. */
  function NatToString(n: nat): (s: string)
    ensures 1 <= |s|
    ensures AllDigits(s)
    ensures s[0] == '0' <==> n == 0
    decreases n
  {
    if n < 10 then [DigitChar(n)] else NatToString(n / 10) + [DigitChar(n % 10)]
  }

  /** `str(i)` for any integer: a '-' in front of the digits of a negative value. */
  function IntToString(i: int): (s: string)
    ensures 1 <= |s|
    ensures s[0] == '-' <==> i < 0
    ensures forall k :: 0 <= k < |s| ==> IsDigit(s[k]) || (k == 0 && s[k] == '-')
  {
    if i < 0 then "-" + NatToString(-i) else NatToString(i)
  }

  /** The value of a string of decimal digits, most significant first. */
  function DigitsValue(s: string): nat
    requires AllDigits(s)
  {
    if |s| == 0 then 0 else DigitsValue(s[..|s| - 1]) * 10 + DigitValue(s[|s| - 1])
  }

  lemma {:induction false} DigitsValueOfNatToString(n: nat)
    ensures DigitsValue(NatToString(n)) == n
    decreases n
  {
    if n >= 10 {
      var s := NatToString(n);
      assert s[..|s| - 1] == NatToString(n / 10);
      DigitsValueOfNatToString(n / 10);
    }
  }

  /** A number with exactly k+1 decimal digits prints as k+1 characters. */
  lemma {:induction false} NatToStringLength(n: nat, k: nat)
    requires Pow10(k) <= n < Pow10(k + 1)
    ensures |NatToString(n)| == k + 1
    decreases k
  {
    if k > 0 {
      assert Pow10(k) == 10 * Pow10(k - 1);
      assert Pow10(k - 1) <= n / 10 < Pow10(k);
      NatToStringLength(n / 10, k - 1);
    }
  }

  /** Python's `str.isspace` for one character: the characters `strip()` removes. */
  predicate IsSpace(c: char) {
    || c == ' '
    || ('\t' <= c <= '\r')
    || ('\U{1C}' <= c <= '\U{1F}')
    || c == '\U{85}' || c == '\U{A0}' || c == '\U{1680}'
    || ('\U{2000}' <= c <= '\U{200A}')
    || c == '\U{2028}' || c == '\U{2029}' || c == '\U{202F}' || c == '\U{205F}' || c == '\U{3000}'
  }

  /** `s.lstrip()`: the suffix of s that starts at its first non-space. */
  function LStrip(s: string): (r: string)
    ensures |r| <= |s| && r == s[|s| - |r|..]
    ensures |r| > 0 ==> !IsSpace(r[0])
    ensures forall i :: 0 <= i < |s| - |r| ==> IsSpace(s[i])
  {
    if |s| > 0 && IsSpace(s[0]) then LStrip(s[1..]) else s
  }

  /** `s.rstrip()`: the prefix of s that ends at its last non-space. */
  function RStrip(s: string): (r: string)
    ensures |r| <= |s| && r == s[..|r|]
    ensures |r| > 0 ==> !IsSpace(r[|r| - 1])
    ensures forall i :: |r| <= i < |s| ==> IsSpace(s[i])
  {
    if |s| > 0 && IsSpace(s[|s| - 1]) then RStrip(s[..|s| - 1]) else s
  }

  /** `s.strip()`. */
  function Strip(s: string): string {
    RStrip(LStrip(s))
  }

  lemma StripUnchanged(s: string)
    requires |s| == 0 || (!IsSpace(s[0]) && !IsSpace(s[|s| - 1]))
    ensures Strip(s) == s
  {
  }

  /** `int(s)` restricted to surrounding whitespace, one optional sign and ASCII digits. */
  function ParseInt(s: string): Option<int> {
    ParseStripped(Strip(s))
  }

  /** `int(t)` for a t with no surrounding whitespace. */
  function ParseStripped(t: string): Option<int> {
    if |t| > 0 && (t[0] == '-' || t[0] == '+') then
      var digits := t[1..];
      if |digits| > 0 && AllDigits(digits) then
        var v: int := DigitsValue(digits);
        Some(if t[0] == '-' then -v else v)
      else
        None
    else if |t| > 0 && AllDigits(t) then
      Some(DigitsValue(t))
    else
      None
  }

  /** `int(str(i)) == i`: the decimal rendering parses back to the same integer. */
  lemma ParseIntOfIntToString(i: int)
    ensures ParseInt(IntToString(i)) == Some(i)
  {
    var s := IntToString(i);
    IntToStringHasNoSpace(i);
    StripUnchanged(s);
    if i < 0 {
      var digits := NatToString(-i);
      assert s == "-" + digits;
      ParseNegatedDigits(digits);
      DigitsValueOfNatToString(-i);
    } else {
      ParseDigits(s);
      DigitsValueOfNatToString(i);
    }
  }

  lemma IntToStringHasNoSpace(i: int)
    ensures !IsSpace(IntToString(i)[0]) && !IsSpace(IntToString(i)[|IntToString(i)| - 1])
  {
    var s := IntToString(i);
    if i < 0 {
      var digits := NatToString(-i);
      assert s == "-" + digits;
      assert s[|s| - 1] == digits[|digits| - 1];
    } else {
      assert s == NatToString(i);
    }
  }

  lemma ParseDigits(digits: string)
    requires |digits| > 0 && AllDigits(digits)
    ensures ParseStripped(digits) == Some(DigitsValue(digits))
  {
    assert IsDigit(digits[0]);
  }

  lemma ParseNegatedDigits(digits: string)
    requires |digits| > 0 && AllDigits(digits)
    ensures ParseStripped("-" + digits) == Some(-(DigitsValue(digits) as int))
  {
    assert ("-" + digits)[1..] == digits;
  }

  /** `s.replace(c, "")` for a one-character c. */
  function Remove(s: string, c: char): (r: string)
    ensures c !in r
    ensures |r| <= |s|
  {
    if |s| == 0 then "" else (if s[0] == c then "" else [s[0]]) + Remove(s[1..], c)
  }

  lemma {:induction false} RemoveConcat(a: string, b: string, c: char)
    ensures Remove(a + b, c) == Remove(a, c) + Remove(b, c)
  {
    if |a| > 0 {
      assert (a + b)[1..] == a[1..] + b;
      RemoveConcat(a[1..], b, c);
    } else {
      assert a + b == b;
    }
  }

  lemma {:induction false} RemoveAbsent(s: string, c: char)
    requires c !in s
    ensures Remove(s, c) == s
  {
    if |s| > 0 {
      assert c !in s[1..];
      RemoveAbsent(s[1..], c);
    }
  }

  /** Deleting the only c from a + [c] + b leaves a + b. */
  lemma RemoveOnly(a: string, c: char, b: string)
    requires c !in a && c !in b
    ensures Remove(a + [c] + b, c) == a + b
  {
    RemoveConcat(a, [c], c);
    RemoveAbsent(a, c);
    RemoveSelf(c);
    assert Remove(a + [c], c) == a + [];
    assert a + [] == a;
    RemoveConcat(a + [c], b, c);
    RemoveAbsent(b, c);
  }

  lemma RemoveSelf(c: char)
    ensures Remove([c], c) == []
  {
    assert [c][1..] == [];
  }

  lemma {:induction false} RemoveKeepsAbsent(s: string, c: char, x: char)
    requires x !in s
    ensures x !in Remove(s, c)
  {
    if |s| > 0 {
      assert x !in s[1..];
      RemoveKeepsAbsent(s[1..], c, x);
    }
  }

  lemma {:induction false} RemoveKeepsOther(s: string, c: char, x: char)
    requires x in s && x != c
    ensures x in Remove(s, c)
  {
    if s[0] == x {
      assert Remove(s, c)[0] == x;
    } else {
      assert x in s[1..];
      RemoveKeepsOther(s[1..], c, x);
    }
  }

  /** `strip()` only removes whitespace: every other character survives it. */
  lemma StripKeepsNonSpace(s: string, x: char)
    requires x in s && !IsSpace(x)
    ensures x in Strip(s)
  {
    var j :| 0 <= j < |s| && s[j] == x;
    var l := LStrip(s);
    var k := j - (|s| - |l|);
    assert 0 <= k < |l| && l[k] == x;
    var r := RStrip(l);
    assert k < |r| && r[k] == x;
  }

  /** `int(t)` rejects any t holding a character that is neither a digit nor a sign. */
  lemma ParseStrippedRejects(t: string, x: char)
    requires x in t && !IsDigit(x) && x != '+' && x != '-'
    ensures ParseStripped(t).None?
  {
    var j :| 0 <= j < |t| && t[j] == x;
    assert !AllDigits(t);
    if j > 0 {
      assert t[1..][j - 1] == x;
    }
  }

  /** The position of the first c in s, or |s| when there is none. */
  function FirstIndexOf(s: string, c: char): (k: nat)
    ensures k <= |s|
    ensures k < |s| ==> s[k] == c
    ensures forall i :: 0 <= i < k ==> s[i] != c
  {
    if |s| == 0 then 0 else if s[0] == c then 0 else 1 + FirstIndexOf(s[1..], c)
  }

  /** In a + [c] + b with no c in a, the first c is the one after a. */
  lemma FirstIndexOfAfter(a: string, c: char, b: string)
    requires c !in a
    ensures FirstIndexOf(a + [c] + b, c) == |a|
  {
    var s := a + [c] + b;
    assert forall i :: 0 <= i < |a| ==> s[i] == a[i];
    assert s[|a|] == c;
  }

  /** `s.replace(c, d)` for one-character c and d. */
  function Replace(s: string, c: char, d: char): (r: string)
    ensures |r| == |s|
    ensures forall i :: 0 <= i < |s| ==> r[i] == if s[i] == c then d else s[i]
    ensures c != d ==> c !in r
  {
    if |s| == 0 then "" else [if s[0] == c then d else s[0]] + Replace(s[1..], c, d)
  }

  function LowerChar(c: char): char {
    if 'A' <= c <= 'Z' then (c as int + 32) as char else c
  }

  /** `s.lower()` on ASCII letters. */
  function ToLower(s: string): (r: string)
    ensures |r| == |s|
    ensures forall i :: 0 <= i < |s| ==> r[i] == LowerChar(s[i])
  {
    if |s| == 0 then "" else [LowerChar(s[0])] + ToLower(s[1..])
  }

  lemma {:induction false} ToLowerConcat(a: string, b: string)
    ensures ToLower(a + b) == ToLower(a) + ToLower(b)
  {
    assert forall i :: 0 <= i < |a + b| ==> ToLower(a + b)[i] == (ToLower(a) + ToLower(b))[i];
  }

  /** Python's `sub in s`. */
  function Contains(s: string, sub: string): bool
    decreases |s|
  {
    |sub| <= |s| && (s[..|sub|] == sub || (|s| > 0 && Contains(s[1..], sub)))
  }

  /** sub occurs in s starting at position i. */
  predicate OccursAt(s: string, sub: string, i: int) {
    0 <= i <= |s| - |sub| && s[i..i + |sub|] == sub
  }

  /** `sub in s` holds exactly when sub occurs at some position of s. */
  lemma {:induction false} ContainsAt(s: string, sub: string)
    ensures Contains(s, sub) <==> exists i :: OccursAt(s, sub, i)
  {
    if |sub| <= |s| {
      if s[..|sub|] == sub {
        assert OccursAt(s, sub, 0);
      } else if |s| > 0 {
        ContainsAt(s[1..], sub);
        if Contains(s[1..], sub) {
          var i :| OccursAt(s[1..], sub, i);
          assert s[i + 1..i + 1 + |sub|] == s[1..][i..i + |sub|];
          assert OccursAt(s, sub, i + 1);
        } else {
          forall i | OccursAt(s, sub, i)
            ensures false
          {
            if i > 0 {
              assert s[i..i + |sub|] == s[1..][i - 1..i - 1 + |sub|];
              assert OccursAt(s[1..], sub, i - 1);
            }
          }
        }
      }
    } else {
      forall i | OccursAt(s, sub, i)
        ensures false
      {
      }
    }
  }

  lemma ContainsPrefix(s: string, sub: string)
    requires sub <= s
    ensures Contains(s, sub)
  {
  }

  lemma {:induction false} ContainsExtend(a: string, s: string, b: string, sub: string)
    requires Contains(s, sub)
    ensures Contains(a + s + b, sub)
    decreases |a|, |s|
  {
    if |a| > 0 {
      assert (a + s + b)[1..] == a[1..] + s + b;
      ContainsExtend(a[1..], s, b, sub);
    } else if s[..|sub|] == sub {
      assert (s + b)[..|sub|] == sub;
      assert a + s + b == s + b;
    } else {
      assert (s + b)[1..] == s[1..] + b;
      ContainsExtend([], s[1..], b, sub);
      assert [] + s[1..] + b == s[1..] + b;
      assert a + s + b == s + b;
    }
  }

  /** Python's `s[:n]`. */
  function Take(s: string, n: nat): (r: string)
    ensures |r| == if |s| < n then |s| else n
    ensures r <= s
  {
    if |s| < n then s else s[..n]
  }

  /** `os.path.join(dir, name)` on POSIX for two components. */
  function JoinPath(dir: string, name: string): (p: string)
    ensures |name| <= |p| && p[|p| - |name|..] == name
    ensures (|name| == 0 || name[0] != '/') ==> dir <= p
    ensures |dir| > 0 && (|name| == 0 || name[0] != '/') ==>
      |p| > |name| && p[|p| - |name| - 1] == '/' && |p| <= |dir| + 1 + |name|
  {
    if |name| > 0 && name[0] == '/' then name
    else if |dir| == 0 then name
    else if dir[|dir| - 1] == '/' then dir + name
    else dir + "/" + name
  }
}
